=== FILE: README.md ===
# PC build shop: compatibility validator and front-end state rules

This project is a Dafny model of the decision logic of a small PC-parts shop.
It has an Express back end and a React front end. The modelled parts are:

- **the compatibility validator** behind `POST /api/validate-compatibility`
  (`validator.dfy`, with the category table and part records in `parts.dfy`).
  It takes an optional part per category (CPU, motherboard, RAM, GPU, storage,
  cooler, PSU, case) and applies four rules in a fixed order: socket, memory
  generation, form factor and power. It reports the issues, whether the build
  is compatible, the estimated wattage and the recommended PSU wattage
  (30 % headroom). `getCategoryName` is `Parts.CategoryName`.
- **the cart** held by `CartProvider` (`cart.dfy`): merge-on-add, remove,
  set-or-remove quantity, clear, and the count and total.
- **the custom-build wizard** (`build_wizard.dfy`): the eight steps and their
  required flags, selecting a part for the current step, bounded back/next
  navigation, when validation is requested, the "build ready" gate and the
  price sum.
- **the sign-up form** (`signup.dfy`): the four field checks, including the
  email pattern `^\S+@\S+\.\S+$`, and clearing a field's error on edit.
- **the product page** (`products.dfy`): the category button list, the
  search/category filter, the four sort options and the stock label.
- **the home page** (`home_page.dfy`): the deal-of-the-day countdown tick on
  its `HH:MM:SS` text, and the slideshow's next/previous index.
- **the navigation bar** (`navbar.dfy`): the sub-category URL slug, the
  per-category open/closed toggle and the cart badge.

`text.dfy` holds the JavaScript string operations these rely on:
- the `\s` character class;
- ASCII lower-casing;
- `includes`;
- `Number#toString` and `Number()` on digit strings;
- `padStart(2, '0')`;
- `split`.

`options.dfy` holds `Option`, which stands for JavaScript's `null`.

Some values are modelled by integers:
- Prices are integer cents.
- Ratings are integer tenths.
- Wattages are natural numbers.
- `Math.round(t * 1.3)` is `(13 * t + 5) / 10`.

Each effect is modelled as the pure update it applies:
- a React state setter is a function from the old state to the new one;
- the server call made by the wizard is a parameter (`Some(issues)` for a
  reply, `None` for a failed request).

## Model

| member | source | states |
|---|---|---|
| Validator.Validate | pcback/server.js:101-156 | `compatible` holds iff the issue list is empty. The wattage is the base allowance plus the selected parts' allowances. The recommendation is the rounded 130 % of it. Issues come in rule order, at most one per rule. |
| Validator.SocketRule | pcback/server.js:107-111 | A socket issue is reported iff CPU and board are both selected with different sockets. It carries both sockets. |
| Validator.SocketMessageNamesBoth | pcback/server.js:110 | The socket message text contains the CPU socket and the board socket. |
| Validator.MemoryRule | pcback/server.js:114-123 | A memory issue is reported iff RAM and board are both selected and neither "specs has DDR5 and type is DDR5" nor "specs has DDR4 and type is DDR4" holds. It carries the RAM type and the advertised generation. |
| Validator.Advertised | pcback/server.js:121 | The memory message never names a generation the board does not advertise, provided the specs mention DDR4 or DDR5. "DDR5" wins when both are mentioned; "DDR4" is the fallback when neither is. |
| Validator.MemoryMessageNamesBoth | pcback/server.js:121 | The memory message text contains the RAM type and the advertised generation. |
| Validator.SocketMismatchCase | pcback/server.js:107-111 | An AM5 CPU on an LGA1700 board gives exactly one issue, the socket mismatch (AM5, LGA1700). |
| Validator.MemoryDdr4Case | pcback/server.js:115-122 | On a board whose specs say "DDR5", DDR4 memory gives exactly the issue (DDR4, DDR5). |
| Validator.MemoryDdr5Case | pcback/server.js:115-122 | On a board whose specs say "DDR5", DDR5 memory gives no issue. |
| Validator.FormFactorRule | pcback/server.js:125-132 | A form-factor issue is reported iff an ATX board meets a Micro-ATX case, and it is always ("ATX", "Micro-ATX"). |
| Validator.MicroAtxCaseCase | pcback/server.js:129-131 | An ATX board with a Micro-ATX case yields exactly the form-factor issue. |
| Validator.MiniItxCaseCase | pcback/server.js:126-132 | An ATX board with a Mini-ITX case yields no issue at all. |
| Validator.TotalWattage | pcback/server.js:134-141 | The estimate, computed in source order, equals 50 plus the allowances of every category. |
| Validator.AllowanceSumOfAll | pcback/server.js:135-141 | Only the CPU and GPU wattages and the flat 10 for RAM and 15 for storage contribute. |
| Validator.Recommended | pcback/server.js:144 | The recommendation r is the integer nearest 1.3 * total with halves rounded up: 13t - 5 < 10r <= 13t + 5. It is never below the total. |
| Validator.RecommendedMonotone | pcback/server.js:144 | A larger total never gets a smaller recommendation. |
| Validator.PowerRule | pcback/server.js:143-148 | A power issue is reported iff a PSU is selected whose wattage is below the recommendation. It cites the PSU wattage and the recommendation. |
| Validator.PowerMessageCitesWattages | pcback/server.js:147 | The power message text contains both wattages with their "W" suffix. |
| Validator.Message | pcback/server.js:110-147 | Every message is non-empty and starts with the letter of its rule: C(PU socket), R(AM type), M(otherboard form factor) or P(ower supply). |
| Validator.MessageTellsRule | pcback/server.js:110-147 | Two issues with the same message text come from the same rule. |
| Validator.PowerCases | pcback/server.js:134-148 | A 120 W CPU, a 300 W GPU, RAM and storage draw 495 W, so 644 W is recommended. A 550 W PSU is flagged and a 650 W PSU is not. |
| Validator.AddingPartRaisesDraw | pcback/server.js:134-144 | Selecting a part in an empty category raises the estimate by exactly that part's allowance. The recommendation does not drop. |
| Validator.RankedIssuesAtMostFour | pcback/server.js:103-148 | An issue list in strict rule order has at most four entries. |
| Validator.AtMostFourIssues | pcback/server.js:103-155 | A report never has more than four issues. |
| Validator.EmptySelectionReport | pcback/server.js:134-155 | An empty selection is compatible, with no issues, an estimate of 50 and a recommendation of 65. |
| Parts.CategoryName | pcback/server.js:217-230 | Each of the eight category ids maps to its display name. Any other id is returned unchanged. |
| Parts.FromIdOfId | pcback/server.js:218-227 | Reading back a category's id gives the category: the eight ids are distinct. |
| Parts.InitialSelection | pcfront/src/components/CustomBuildPage.jsx:19-23 | The initial selection has no part in any of the eight categories. |
| BuildWizard.Required | pcfront/src/components/CustomBuildPage.jsx:8-17 | A step is required iff it is not the graphics card. |
| BuildWizard.IndexOf | pcfront/src/components/CustomBuildPage.jsx:121 | Each category sits at exactly one step position, below 8. |
| BuildWizard.InitialWizard | pcfront/src/components/CustomBuildPage.jsx:26-30 | The wizard starts at step 0 with nothing selected, no issues, not ready, and a price of 0. |
| BuildWizard.SelectComponent | pcfront/src/components/CustomBuildPage.jsx:112-117 | The current step's entry becomes the chosen part. Every other category, the step, the issues, readiness and price are unchanged. |
| BuildWizard.GoToNext | pcfront/src/components/CustomBuildPage.jsx:120-125 | The step index rises by one unless it is the last. Nothing else changes. |
| BuildWizard.GoToPrevious | pcfront/src/components/CustomBuildPage.jsx:128-133 | The step index drops by one unless it is the first. Nothing else changes. |
| BuildWizard.NavigationMovesIffEnabled | pcfront/src/components/CustomBuildPage.jsx:250-259 | Next leaves the wizard unchanged iff its button is disabled (last step). The same holds for Previous and the first step. |
| BuildWizard.NavigationInverse | pcfront/src/components/CustomBuildPage.jsx:120-133 | Where enabled, Next then Previous returns to the same wizard, and so does Previous then Next. |
| BuildWizard.RequiredGates | pcfront/src/components/CustomBuildPage.jsx:79-88 | Validation runs iff some non-GPU category is selected. All required parts are present iff every non-GPU category is selected. |
| BuildWizard.ValidateBuild | pcfront/src/components/CustomBuildPage.jsx:76-106 | Nothing required selected: no issues, not ready. A reply: its issues are stored, and the build is ready iff all required parts are selected and there are no issues. A failed request: the fixed error text, with readiness and price unchanged. |
| BuildWizard.BuildReadyIff | pcfront/src/components/CustomBuildPage.jsx:84-89 | Against this server, the build is ready iff every non-GPU category is selected and the validator reports the selection compatible. |
| BuildWizard.TotalPrice | pcfront/src/components/CustomBuildPage.jsx:95-100 | The total over the category list equals the sum of the prices of the eight entries, a missing entry adding 0. |
| BuildWizard.InitialPriceZero | pcfront/src/components/CustomBuildPage.jsx:95-100 | The initial selection totals 0. |
| BuildWizard.SelectComponentPrice | pcfront/src/components/CustomBuildPage.jsx:95-117 | Selecting a part changes the total by the new part's price minus the replaced part's price. |
| Cart.FindIndex | pcfront/src/components/CartProvider.jsx:23 | The result is the first position holding the id, or -1 iff no entry has it. |
| Cart.AddToCart | pcfront/src/components/CartProvider.jsx:20-37 | A new id is appended at the end with the earlier entries untouched. A known id keeps the length and adds the quantity to its first entry only. |
| Cart.AddToCartKeepsIdsUnique | pcfront/src/components/CartProvider.jsx:20-37 | If ids are unique before adding, they are unique after. |
| Cart.AddToCartTotals | pcfront/src/components/CartProvider.jsx:20-37 | Adding raises the item count by the added quantity. It raises the total by that quantity times the price of the entry it lands in. |
| Cart.RemoveFromCart | pcfront/src/components/CartProvider.jsx:41-43 | An entry survives iff its id differs. Removing an absent id changes nothing. |
| Cart.RemoveConcat | pcfront/src/components/CartProvider.jsx:41-43 | Removal works piecewise over a concatenation, so the survivors keep their relative order. |
| Cart.RemoveKeepsIdsUnique | pcfront/src/components/CartProvider.jsx:41-43 | Removal preserves unique ids. |
| Cart.UpdateQuantity | pcfront/src/components/CartProvider.jsx:46-57 | A quantity of zero or less drops exactly the entries with the id. A positive quantity keeps the length, sets the matching entries' quantity and leaves every other field and entry unchanged. |
| Cart.UpdateNonPositiveRemoves | pcfront/src/components/CartProvider.jsx:46-50 | With a quantity of zero or less, updating is exactly removing. |
| Cart.UpdateQuantityCount | pcfront/src/components/CartProvider.jsx:52-56 | With unique ids, setting an entry to q changes the count by q minus its old quantity. |
| Cart.ClearCart | pcfront/src/components/CartProvider.jsx:60-62 | The cleared cart has no entries, count 0 and total 0. |
| Cart.TotalsConcat | pcfront/src/components/CartProvider.jsx:65-72 | Count and total of a concatenation are the sums of the parts' counts and totals. |
| Cart.TotalsLastStep | pcfront/src/components/CartProvider.jsx:65-72 | In reduce order, the last entry adds its quantity to the count of the entries before it, and its price times quantity to their total. |
| Cart.TotalNonNegative | pcfront/src/components/CartProvider.jsx:65-67 | With no negative price or quantity, the total is not negative. |
| Cart.TotalsUpdate | pcfront/src/components/CartProvider.jsx:65-72 | Replacing one entry changes the count and total by the difference between the new and old entries. |
| Cart.OperationsKeepQuantitiesPositive | pcfront/src/components/CartProvider.jsx:20-57 | If all quantities are positive, they stay positive after removing, after updating and after adding a positive quantity. |
| Cart.CountPositiveIffNonEmpty | pcfront/src/components/CartProvider.jsx:70-72 | With positive quantities the count is at least the number of entries, so it is positive iff the cart is non-empty. |
| Navbar.BadgeXorEmptyMessage | pcfront/src/components/Navbar.jsx:129-139 | With positive quantities, the badge is shown iff the "cart is empty" message is not. |
| SignUp.ValidateForm | pcfront/src/components/SignUp.jsx:31-57 | Each error key is present iff its check fails: username under 3, email not matching the pattern, password under 8, confirmation differing. Each present key carries its exact message. The form is valid iff all four checks pass. |
| SignUp.EmailTestMatchesPattern | pcfront/src/components/SignUp.jsx:40-43 | The executable email test agrees with the regular expression on every string. That test is: no whitespace, an '@' after at least one character, then a '.' with at least one character on each side. |
| SignUp.EmailCases | pcfront/src/components/SignUp.jsx:40-43 | "a@b.c" passes. "a b@c.d", "a@b" and "@b.c" fail. |
| SignUp.HandleChange | pcfront/src/components/SignUp.jsx:18-29 | The edited field takes the new text and the other fields are kept. The edited field's error is no longer shown. No error key is added or removed, and every other error is unchanged. |
| Products.Distinct | pcfront/src/components/ProductPage.jsx:27 | Same members as the input, no duplicates, in first-occurrence order. |
| Products.CategoryOptions | pcfront/src/components/ProductPage.jsx:27 | "All" comes first, followed by exactly the product categories without duplicates. The whole list is duplicate-free iff no product's category is itself "All". |
| Products.Matches | pcfront/src/components/ProductPage.jsx:30-33 | An empty query in "All" matches every product. A query longer than the product name never matches. |
| Products.Filter | pcfront/src/components/ProductPage.jsx:29-34 | A product is kept iff its lower-cased name contains the lower-cased query and the category is "All" or equal to the product's. The result is no longer than the input. |
| Products.FilterConcat | pcfront/src/components/ProductPage.jsx:29-34 | Filtering a concatenation is the concatenation of the filtered parts, so kept products stay in their order and repeats are kept. |
| Products.FilterAllMatch | pcfront/src/components/ProductPage.jsx:29-34 | When every product matches, filtering returns the list unchanged, in order. |
| Products.Compare | pcfront/src/components/ProductPage.jsx:35-46 | The comparator is negative iff a's key is below b's and zero iff the keys are equal. The key is the price, the negated price, the negated rating, or 0 for any other option. |
| Products.Sort | pcfront/src/components/ProductPage.jsx:35-46 | The output is a permutation of the input and is ordered by the option's key. |
| Products.SortAllEqualKeepsOrder | pcfront/src/components/ProductPage.jsx:43-44 | When the comparator always returns 0, sorting keeps the original order. |
| Products.FeaturedKeepsFilterOrder | pcfront/src/components/ProductPage.jsx:29-46 | Under "featured" the shown list is the filtered list in its original order, whatever the query and category. |
| Products.FilteredProducts | pcfront/src/components/ProductPage.jsx:29-46 | The shown list is a permutation of the filtered list, contains only matching products, and is ordered by the sort option. |
| Products.SortOptionOrders | pcfront/src/components/ProductPage.jsx:35-46 | "price-low-high" gives non-decreasing prices, "price-high-low" non-increasing prices and "rating" non-increasing ratings. |
| Products.DefaultViewIsEverything | pcfront/src/components/ProductPage.jsx:29-45 | An empty query, "All" and "featured" show every product in its original order. |
| Products.StockLabel | pcfront/src/components/ProductPage.jsx:93 | "Out of stock" iff stock <= 0, which covers every stock that disables the add-to-cart button. For a positive stock, the text between "In stock (" and ")" reads back with `Number` as the stock. |
| Products.NegativeStockStillEnabled | pcfront/src/components/ProductPage.jsx:93-97 | A negative stock reads "Out of stock" yet leaves the add-to-cart button enabled, because the button is disabled only at exactly 0. |
| HomePage.Tick | pcfront/src/components/HomePage.jsx:82-100 | With seconds left, only the seconds drop. At :00 the seconds wrap to 59 and a minute is borrowed, and at 00:00 an hour is borrowed. The timer stops iff the clock reads 00:00:00. |
| HomePage.TickIsOneSecond | pcfront/src/components/HomePage.jsx:82-100 | On a clock with minutes and seconds below 60 and time left, a tick yields the clock showing exactly one second less. |
| HomePage.ClockOfSeconds | pcfront/src/components/HomePage.jsx:82-95 | A clock with minutes and seconds below 60 is determined by its total number of seconds. |
| Text.Pad2 | pcfront/src/components/HomePage.jsx:102 | The padded text has at least two digits and reads back as the same number. Below 10 it is "0" and the digit; from 10 up it is the plain decimal. |
| Text.ParseNumberOfNatToString | pcfront/src/components/HomePage.jsx:82 | `Number` reads the decimal text of every natural number back as that number. |
| Text.ParseNumberLeadingZero | pcfront/src/components/HomePage.jsx:82 | A leading "0" does not change the number read, so padded fields read as their plain value. |
| Text.SplitAtFirst | pcfront/src/components/HomePage.jsx:82 | Splitting at the first separator gives the text before it, followed by the split of the rest. |
| HomePage.Format | pcfront/src/components/HomePage.jsx:102 | Splitting the countdown text at ':' gives exactly the three padded fields. |
| HomePage.ParseDigitFields | pcfront/src/components/HomePage.jsx:82 | Three non-empty digit runs joined by ':' read as the clock of their decimal values. |
| HomePage.ParseIgnoresLaterFields | pcfront/src/components/HomePage.jsx:82 | Destructuring keeps only the first three fields, so appending ":" and anything after a third field does not change what is read. |
| HomePage.UnpaddedReadsAsPadded | pcfront/src/components/HomePage.jsx:82 | Unpadded text such as "5:3:7" reads as the same clock as its padded form "05:03:07". |
| HomePage.TickText | pcfront/src/components/HomePage.jsx:80-103 | The timer stops, producing no text, iff the current text reads 00:00:00. Otherwise the new text parses back to the ticked clock. |
| HomePage.DealStartParses | pcfront/src/components/HomePage.jsx:62-82 | The deal's initial text "23:59:59" reads as the clock 23:59:59, so the countdown can start from it. |
| HomePage.ParseFormat | pcfront/src/components/HomePage.jsx:82-102 | Splitting a formatted clock at ':' and reading the three numbers gives back the same clock. |
| HomePage.TickTextCountsDown | pcfront/src/components/HomePage.jsx:80-103 | On the displayed text, a tick produces text that parses to a clock one second shorter. |
| HomePage.TickTextStopsAtZero | pcfront/src/components/HomePage.jsx:97-100 | At "00:00:00" the tick produces no new text. |
| HomePage.NextSlide | pcfront/src/components/HomePage.jsx:125-129 | For an index in range, the next index stays in range and is (i + 1) mod n: the last slide wraps to 0. The auto-advance at lines 110-113 applies the same update. |
| HomePage.PrevSlide | pcfront/src/components/HomePage.jsx:131-135 | For an index in range, the previous index stays in range and is (i + n - 1) mod n: slide 0 wraps to the last. |
| HomePage.SlidesInverse | pcfront/src/components/HomePage.jsx:125-135 | Next and previous undo each other. |
| Navbar.Slug | pcfront/src/components/Navbar.jsx:252 | A slug contains no whitespace and no upper-case letter. |
| Navbar.CollapseRun | pcfront/src/components/Navbar.jsx:252 | A maximal whitespace run between whitespace-free text and a non-space character becomes one '-'. |
| Navbar.CollapsePrefix | pcfront/src/components/Navbar.jsx:252 | A whitespace-free prefix passes through the whitespace replacement unchanged. |
| Navbar.SlugTwoWords | pcfront/src/components/Navbar.jsx:252 | Two whitespace-free words separated by one space slug to the lower-cased words joined by '-'. |
| Navbar.SlugIdempotent | pcfront/src/components/Navbar.jsx:252 | Slugging a slug changes nothing. |
| Navbar.GamingPcsSlug | pcfront/src/components/Navbar.jsx:252 | "Gaming PCs" becomes "gaming-pcs". |
| Navbar.SubcategoryLink | pcfront/src/components/Navbar.jsx:252 | A sub-category link starts with "/shop/" and contains no whitespace. |
| Navbar.SlugNoSlash | pcfront/src/components/Navbar.jsx:252 | A name without '/' gives a slug without '/': lower-casing and collapsing whitespace add no path separator. |
| Navbar.SubcategoryLinkSegments | pcfront/src/components/Navbar.jsx:252 | For names without '/', splitting the link at '/' gives "", "shop", the category's slug and the subcategory's slug, in that order. |
| Navbar.ToggleCategory | pcfront/src/components/Navbar.jsx:70-75 | The toggled key's open state is negated. The key set gains only that key, and every other key keeps its value. |
| Navbar.ToggleTwice | pcfront/src/components/Navbar.jsx:70-75 | Toggling the same category twice restores every key's open state. |

## Left out

- Express routing, request parsing, database models, the other routes, and PDF generation and download: these are I/O.
- Requests whose `components` is not an object: the handler reads `components.cpu` with no guard, so a missing or null `components` throws and the server answers 500. A non-JSON body parses to `{}` and lands in that case. A string, number or array `components` reads every category as absent and gets the empty-selection report. The model's input is always a typed selection.
- Missing fields on a present part: the handler reads `specs.includes`, which throws when `specs` is absent. A missing wattage would add `undefined`, which gives NaN. The model gives every part every field.
- Validator.Recommended: states `Math.round(t * 1.3)` exactly over the integers. In double precision the two agree for every total below roughly 10^14. The double nearest 1.3 lies slightly above 1.3, so an exact half is never rounded down. For astronomically large totals the spacing between doubles approaches a tenth and the two can differ; the model does not capture that.
- Floating-point money: prices are integer cents, ratings integer tenths, and `toFixed`, discounts and savings are not modelled.
- Parts.CategoryName: ids that name properties every JavaScript object inherits (such as "constructor") return those properties in the source. The model returns the id.
- String lengths are counted in code points, not UTF-16 code units. Lower-casing is ASCII only, not full Unicode case mapping.
- Text.ParseNumber: reads only non-empty runs of decimal digits. JavaScript's `Number` also gives 0 for "", ignores surrounding whitespace (" 7" is 7), and accepts signs, decimals and exponents ("1e3" is 1000). The timer text never takes those forms.
- HomePage.TickText: requires text that splits into three digit strings. `Number("")` (0) and NaN paths on other text are not modelled, because the timer only ever holds the literal start text "23:59:59", which meets the requires (HomePage.DealStartParses), or text it formatted itself.
- Products.Sort: the sort is a stable insertion sort. `Array.prototype.sort` is stable too, but its order among equal keys is stated only for the "featured" option.
- SignUp.HandleChange: the model's error map holds only the four form fields. In the source, the submit handler's failure path also stores a `general` message and one entry per server-reported `error.param` (pcfront/src/components/SignUp.jsx:77-91), and the page shows the `general` alert. Editing a field clears only that field's own key, so the `general` alert and server keys that are not form fields persist across every edit. Submission and its server errors are not modelled.
- The product page's `addToCart(product)` passes products without a quantity, which gives a NaN quantity. Cart items in the model always carry an integer quantity.
- React effects are not modelled: local-storage persistence, the intervals that drive the countdown and slideshow, listeners, loading flags and fetches. Only the state update each effect applies is modelled. The wizard's server reply is a parameter.
- The remaining pages are presentation or network wrappers: admin panels, login, checkout, about, the API services and the category cards.

=== FILE: build_wizard.dfy ===
/**
 * The custom-build wizard: a cursor over the eight categories, one selected
 * part per category, and the state the page derives after every selection
 * change (compatibility issues, whether the build is ready, total price).
 */
module BuildWizard {
  import opened Options
  import opened Parts
  import Validator

  /** A wizard step: its category and whether a finished build needs it. */
  datatype Step = Step(category: Category, required: bool)

  const Steps: seq<Step> := [
    Step(Cpu, true), Step(Motherboard, true), Step(Ram, true), Step(Gpu, false),
    Step(Storage, true), Step(Cooler, true), Step(Psu, true), Step(Case, true)
  ]

  const LastIndex: nat := |Steps| - 1

  /** findIndex over the steps: the position of a category's step. */
  function IndexOf(c: Category): (k: nat)
    ensures k < |Steps| && Steps[k].category == c
    ensures forall j :: 0 <= j < |Steps| && Steps[j].category == c ==> j == k
  {
    match c
    case Cpu => 0
    case Motherboard => 1
    case Ram => 2
    case Gpu => 3
    case Storage => 4
    case Cooler => 5
    case Psu => 6
    case Case => 7
  }

  /** Whether a finished build needs the category. */
  function Required(c: Category): (b: bool)
    ensures b <==> c != Gpu
  {
    Steps[IndexOf(c)].required
  }

  /** The page state this model tracks. Prices are in cents. */
  datatype Wizard = Wizard(
    selection: Selection,
    current: Category,
    issues: seq<string>,
    buildReady: bool,
    totalPrice: nat)

  /** The page as first rendered: nothing selected, first category current. */
  function InitialWizard(): (w: Wizard)
    ensures forall c :: w.selection.Get(c) == None
    ensures IndexOf(w.current) == 0
    ensures w.issues == [] && !w.buildReady && w.totalPrice == 0
  {
    Wizard(InitialSelection(), Steps[0].category, [], false, 0)
  }

  /** selectComponent: the part becomes the current category's selection. */
  function SelectComponent(w: Wizard, p: Part): (r: Wizard)
    ensures r.selection.Get(w.current) == Some(p)
    ensures forall c :: c != w.current ==> r.selection.Get(c) == w.selection.Get(c)
    ensures r.current == w.current && r.issues == w.issues
    ensures r.buildReady == w.buildReady && r.totalPrice == w.totalPrice
  {
    w.(selection := w.selection.With(w.current, Some(p)))
  }

  /** goToNextCategory: one step forward unless already at the last step. */
  function GoToNext(w: Wizard): (r: Wizard)
    ensures IndexOf(r.current) == if IndexOf(w.current) < LastIndex then IndexOf(w.current) + 1 else IndexOf(w.current)
    ensures r == w.(current := r.current)
  {
    var k := IndexOf(w.current);
    if k < |Steps| - 1 then w.(current := Steps[k + 1].category) else w
  }

  /** goToPreviousCategory: one step back unless already at the first step. */
  function GoToPrevious(w: Wizard): (r: Wizard)
    ensures IndexOf(r.current) == if IndexOf(w.current) > 0 then IndexOf(w.current) - 1 else IndexOf(w.current)
    ensures r == w.(current := r.current)
  {
    var k := IndexOf(w.current);
    if k > 0 then w.(current := Steps[k - 1].category) else w
  }

  /** The Previous button is disabled at the first step, Next at the last. */
  predicate PreviousDisabled(w: Wizard) {
    IndexOf(w.current) == 0
  }

  predicate NextDisabled(w: Wizard) {
    IndexOf(w.current) == LastIndex
  }

  /** A navigation button changes the step exactly when it is enabled. */
  lemma NavigationMovesIffEnabled(w: Wizard)
    ensures GoToNext(w) == w <==> NextDisabled(w)
    ensures GoToPrevious(w) == w <==> PreviousDisabled(w)
  {
  }

  /** Going back undoes going forward, and the other way round, away from the ends. */
  lemma NavigationInverse(w: Wizard)
    ensures !NextDisabled(w) ==> GoToPrevious(GoToNext(w)) == w
    ensures !PreviousDisabled(w) ==> GoToNext(GoToPrevious(w)) == w
  {
  }

  // ------------------------------------------------------------ derived state

  /** Some required category has a selection (the gate for calling the server). */
  predicate HasRequiredComponents(s: Selection) {
    exists k :: 0 <= k < |Steps| && Steps[k].required && s.Get(Steps[k].category).Some?
  }

  /** Every required category has a selection. */
  predicate AllRequiredSelected(s: Selection) {
    forall k :: 0 <= k < |Steps| && Steps[k].required ==> s.Get(Steps[k].category).Some?
  }

  /** The gates, stated over categories: everything but the graphics card is required. */
  lemma RequiredGates(s: Selection)
    ensures HasRequiredComponents(s) <==> exists c :: c != Gpu && s.Get(c).Some?
    ensures AllRequiredSelected(s) <==> forall c :: c != Gpu ==> s.Get(c).Some?
  {
    if exists c :: c != Gpu && s.Get(c).Some? {
      var c :| c != Gpu && s.Get(c).Some?;
      assert Steps[IndexOf(c)].required;
    }
    if AllRequiredSelected(s) {
      forall c | c != Gpu
        ensures s.Get(c).Some?
      {
        assert Steps[IndexOf(c)].category == c;
      }
    }
  }

  function PriceOf(p: Option<Part>): nat {
    match p case Some(part) => part.price case None => 0
  }

  /** Sum of the prices of the parts selected among the categories cs. */
  function PriceSum(s: Selection, cs: seq<Category>): nat {
    if cs == [] then 0 else PriceOf(s.Get(cs[0])) + PriceSum(s, cs[1..])
  }

  /** The build's total: the prices of the non-null selections, over all eight categories. */
  function TotalPrice(s: Selection): (t: nat)
    ensures t == PriceOf(s.cpu) + PriceOf(s.motherboard) + PriceOf(s.ram) + PriceOf(s.gpu)
      + PriceOf(s.storage) + PriceOf(s.cooler) + PriceOf(s.psu) + PriceOf(s.pcCase)
  {
    PriceSumFields(s);
    PriceSum(s, AllCategories)
  }

  /** Summing over the category list, one category at a time. */
  lemma PriceSumFields(s: Selection)
    ensures PriceSum(s, AllCategories) == PriceOf(s.cpu) + PriceOf(s.motherboard) + PriceOf(s.ram)
      + PriceOf(s.gpu) + PriceOf(s.storage) + PriceOf(s.cooler) + PriceOf(s.psu) + PriceOf(s.pcCase)
  {
    var cs := AllCategories;
    assert PriceSum(s, cs[7..]) == PriceOf(s.pcCase) by { assert cs[7..][1..] == []; }
    assert PriceSum(s, cs[6..]) == PriceOf(s.psu) + PriceSum(s, cs[7..]) by { assert cs[6..][1..] == cs[7..]; }
    assert PriceSum(s, cs[5..]) == PriceOf(s.cooler) + PriceSum(s, cs[6..]) by { assert cs[5..][1..] == cs[6..]; }
    assert PriceSum(s, cs[4..]) == PriceOf(s.storage) + PriceSum(s, cs[5..]) by { assert cs[4..][1..] == cs[5..]; }
    assert PriceSum(s, cs[3..]) == PriceOf(s.gpu) + PriceSum(s, cs[4..]) by { assert cs[3..][1..] == cs[4..]; }
    assert PriceSum(s, cs[2..]) == PriceOf(s.ram) + PriceSum(s, cs[3..]) by { assert cs[2..][1..] == cs[3..]; }
    assert PriceSum(s, cs[1..]) == PriceOf(s.motherboard) + PriceSum(s, cs[2..]) by { assert cs[1..][1..] == cs[2..]; }
  }

  /** The text shown when the compatibility request fails. */
  const RequestFailedText: string := "Error validating compatibility. Please try again."

  /**
   * validateBuild, run after every selection change. `response` is the issue
   * list the server returns, or None when the request throws; the request is
   * only made when some required category is selected.
   */
  function ValidateBuild(w: Wizard, response: Option<seq<string>>): (r: Wizard)
    ensures r.selection == w.selection && r.current == w.current
    ensures !HasRequiredComponents(w.selection) ==>
      r.issues == [] && !r.buildReady && r.totalPrice == TotalPrice(w.selection)
    ensures HasRequiredComponents(w.selection) && response.Some? ==>
      && r.issues == response.value
      && (r.buildReady <==> AllRequiredSelected(w.selection) && response.value == [])
      && r.totalPrice == TotalPrice(w.selection)
    // a failed request leaves readiness and price as they were
    ensures HasRequiredComponents(w.selection) && response.None? ==>
      r.issues == [RequestFailedText] && r.buildReady == w.buildReady && r.totalPrice == w.totalPrice
  {
    var s := w.selection;
    if HasRequiredComponents(s) then
      match response
      case None => w.(issues := [RequestFailedText])
      case Some(issues) =>
        w.(issues := issues, buildReady := AllRequiredSelected(s) && |issues| == 0, totalPrice := TotalPrice(s))
    else
      w.(issues := [], buildReady := false, totalPrice := TotalPrice(s))
  }

  /** What the compatibility endpoint answers for a selection. */
  function ServerResponse(s: Selection): (r: Option<seq<string>>)
    ensures r.Some? && |r.value| == |Validator.Validate(s).issues|
  {
    Some(Validator.Messages(Validator.Validate(s).issues))
  }

  /**
   * Against the real endpoint, the build is ready exactly when every category
   * but the graphics card is selected and the validator finds it compatible.
   */
  lemma BuildReadyIff(w: Wizard)
    ensures ValidateBuild(w, ServerResponse(w.selection)).buildReady
      <==> (forall c :: c != Gpu ==> w.selection.Get(c).Some?) && Validator.Validate(w.selection).compatible
  {
    RequiredGates(w.selection);
    if AllRequiredSelected(w.selection) {
      assert HasRequiredComponents(w.selection) by {
        assert w.selection.Get(Steps[0].category).Some?;
      }
    }
  }

  // ------------------------------------------------------------ price lemmas

  /** Nothing selected costs nothing. */
  lemma {:induction false} PriceSumEmpty(s: Selection, cs: seq<Category>)
    requires forall c :: s.Get(c) == None
    ensures PriceSum(s, cs) == 0
  {
    if cs != [] {
      PriceSumEmpty(s, cs[1..]);
    }
  }

  lemma InitialPriceZero()
    ensures TotalPrice(InitialSelection()) == 0
  {
    PriceSumEmpty(InitialSelection(), AllCategories);
  }

  /** Replacing one category's part changes the sum by the price difference, when c is listed once. */
  lemma {:induction false} PriceSumWith(s: Selection, c: Category, p: Option<Part>, cs: seq<Category>)
    requires forall i, j :: 0 <= i < j < |cs| ==> cs[i] != cs[j]
    ensures PriceSum(s.With(c, p), cs) + (if c in cs then PriceOf(s.Get(c)) else 0)
         == PriceSum(s, cs) + (if c in cs then PriceOf(p) else 0)
  {
    if cs != [] {
      PriceSumWith(s, c, p, cs[1..]);
      assert c in cs <==> (cs[0] == c || c in cs[1..]);
    }
  }

  /** Selecting a part replaces the old selection's price by the new one's in the total. */
  lemma SelectComponentPrice(w: Wizard, p: Part)
    ensures TotalPrice(SelectComponent(w, p).selection) + PriceOf(w.selection.Get(w.current))
         == TotalPrice(w.selection) + p.price
  {
    var s := w.selection;
    assert SelectComponent(w, p).selection == s.With(w.current, Some(p));
    AllCategoriesComplete(w.current);
    AllCategoriesDistinct();
    PriceSumWith(s, w.current, Some(p), AllCategories);
  }
}

=== FILE: cart.dfy ===
/**
 * The shopping cart held by CartProvider: a list of items with at most one
 * entry per product id when built through AddToCart, plus the two totals.
 * Prices are integer cents.
 */
module Cart {

  datatype CartItem = CartItem(id: string, name: string, price: int, quantity: int)

  /** No two entries share an id. */
  predicate UniqueIds(items: seq<CartItem>) {
    forall i, j :: 0 <= i < j < |items| ==> items[i].id != items[j].id
  }

  predicate Absent(items: seq<CartItem>, id: string) {
    forall j :: 0 <= j < |items| ==> items[j].id != id
  }

  /** Array.prototype.findIndex on the id: the first matching position, or -1. */
  function FindIndex(items: seq<CartItem>, id: string): (k: int)
    ensures -1 <= k < |items|
    ensures k >= 0 ==> items[k].id == id && forall j :: 0 <= j < k ==> items[j].id != id
    ensures k == -1 <==> Absent(items, id)
  {
    if items == [] then -1
    else if items[0].id == id then 0
    else
      var k := FindIndex(items[1..], id);
      if k < 0 then -1 else k + 1
  }

  /** addToCart: merge the quantity into the first entry with the same id, or append the item. */
  function AddToCart(items: seq<CartItem>, item: CartItem): (r: seq<CartItem>)
    // a new id is appended at the end, earlier entries untouched
    ensures Absent(items, item.id) ==> |r| == |items| + 1 && r[..|items|] == items && r[|items|] == item
    // a known id keeps the length and adds the quantity to its first entry only
    ensures var k := FindIndex(items, item.id);
      k >= 0 ==>
      && |r| == |items|
      && r[k] == items[k].(quantity := items[k].quantity + item.quantity)
      && forall j :: 0 <= j < |items| && j != k ==> r[j] == items[j]
  {
    var k := FindIndex(items, item.id);
    if k >= 0 then
      items[k := items[k].(quantity := items[k].quantity + item.quantity)]
    else
      items + [item]
  }

  /** removeFromCart: keep, in order, the entries whose id differs. */
  function RemoveFromCart(items: seq<CartItem>, id: string): (r: seq<CartItem>)
    ensures forall x :: x in r <==> x in items && x.id != id
    ensures |r| <= |items|
    ensures Absent(items, id) ==> r == items
  {
    if items == [] then []
    else
      var rest := RemoveFromCart(items[1..], id);
      if items[0].id == id then rest
      else
        assert items == [items[0]] + items[1..];
        [items[0]] + rest
  }

  /** Every entry with the id gets quantity q; everything else is copied. */
  function SetQuantity(items: seq<CartItem>, id: string, q: int): (r: seq<CartItem>)
    ensures |r| == |items|
    ensures forall k :: 0 <= k < |items| ==>
      r[k] == (if items[k].id == id then items[k].(quantity := q) else items[k])
  {
    if items == [] then []
    else
      [if items[0].id == id then items[0].(quantity := q) else items[0]]
      + SetQuantity(items[1..], id, q)
  }

  /** updateQuantity: a quantity of zero or less removes the product; otherwise it is set. */
  function UpdateQuantity(items: seq<CartItem>, id: string, q: int): (r: seq<CartItem>)
    ensures q <= 0 ==> forall x :: x in r <==> x in items && x.id != id
    ensures q > 0 ==> |r| == |items|
    ensures q > 0 ==> forall k :: 0 <= k < |items| ==>
      && r[k].id == items[k].id && r[k].name == items[k].name && r[k].price == items[k].price
      && r[k].quantity == (if items[k].id == id then q else items[k].quantity)
  {
    if q <= 0 then RemoveFromCart(items, id) else SetQuantity(items, id, q)
  }

  /** getItemCount: the sum of the quantities. */
  function ItemCount(items: seq<CartItem>): int {
    if items == [] then 0 else items[0].quantity + ItemCount(items[1..])
  }

  /** getCartTotal: the sum of price times quantity. */
  function CartTotal(items: seq<CartItem>): int {
    if items == [] then 0 else items[0].price * items[0].quantity + CartTotal(items[1..])
  }

  /** clearCart: the empty cart, whose count and total are both zero. */
  function ClearCart(): (r: seq<CartItem>)
    ensures ItemCount(r) == 0 && CartTotal(r) == 0
    ensures forall x :: x !in r
  {
    []
  }

  // ------------------------------------------------------------ lemmas

  /** Removing by id keeps the relative order: it works piecewise on a concatenation. */
  lemma {:induction false} RemoveConcat(a: seq<CartItem>, b: seq<CartItem>, id: string)
    ensures RemoveFromCart(a + b, id) == RemoveFromCart(a, id) + RemoveFromCart(b, id)
  {
    if a != [] {
      assert (a + b)[1..] == a[1..] + b;
      RemoveConcat(a[1..], b, id);
    } else {
      assert a + b == b;
    }
  }

  /** updateQuantity with a quantity of zero or less is exactly removeFromCart. */
  lemma UpdateNonPositiveRemoves(items: seq<CartItem>, id: string, q: int)
    requires q <= 0
    ensures UpdateQuantity(items, id, q) == RemoveFromCart(items, id)
  {
  }

  /** Sums over a concatenation add up. */
  lemma {:induction false} TotalsConcat(a: seq<CartItem>, b: seq<CartItem>)
    ensures ItemCount(a + b) == ItemCount(a) + ItemCount(b)
    ensures CartTotal(a + b) == CartTotal(a) + CartTotal(b)
  {
    if a != [] {
      assert (a + b)[1..] == a[1..] + b;
      TotalsConcat(a[1..], b);
    } else {
      assert a + b == b;
    }
  }

  /**
   * The reduce order: folding from the left, the last entry adds its
   * quantity to the count and its price times quantity to the total.
   */
  lemma TotalsLastStep(items: seq<CartItem>)
    requires items != []
    ensures var n := |items| - 1;
      ItemCount(items) == ItemCount(items[..n]) + items[n].quantity
    ensures var n := |items| - 1;
      CartTotal(items) == CartTotal(items[..n]) + items[n].price * items[n].quantity
  {
    var n := |items| - 1;
    var init, last := items[..n], items[n];
    assert items == init + [last];
    TotalsConcat(init, [last]);
    assert [last][1..] == [];
    assert ItemCount([last]) == last.quantity;
    assert CartTotal([last]) == last.price * last.quantity;
  }

  /** With no negative price or quantity the total is not negative. */
  lemma {:induction false} TotalNonNegative(items: seq<CartItem>)
    requires forall i :: 0 <= i < |items| ==> items[i].price >= 0 && items[i].quantity >= 0
    ensures CartTotal(items) >= 0
  {
    if items != [] {
      TotalNonNegative(items[1..]);
      LineNonNegative(items[0].price, items[0].quantity);
    }
  }

  lemma LineNonNegative(price: int, quantity: int)
    requires price >= 0 && quantity >= 0
    ensures price * quantity >= 0
  {
  }

  /** Replacing one entry changes the sums by the difference of the two entries. */
  lemma {:induction false} TotalsUpdate(items: seq<CartItem>, k: nat, x: CartItem)
    requires k < |items|
    ensures ItemCount(items[k := x]) == ItemCount(items) - items[k].quantity + x.quantity
    ensures CartTotal(items[k := x]) == CartTotal(items) - items[k].price * items[k].quantity + x.price * x.quantity
  {
    if k > 0 {
      assert items[k := x][1..] == items[1..][k - 1 := x];
      TotalsUpdate(items[1..], k - 1, x);
    }
  }

  /** Adding an item raises the count by its quantity and the total by that quantity at the cart's price. */
  lemma AddToCartTotals(items: seq<CartItem>, item: CartItem)
    ensures ItemCount(AddToCart(items, item)) == ItemCount(items) + item.quantity
    ensures var k := FindIndex(items, item.id);
      CartTotal(AddToCart(items, item))
      == CartTotal(items) + item.quantity * (if k >= 0 then items[k].price else item.price)
  {
    var k := FindIndex(items, item.id);
    if k >= 0 {
      MergeCount(items, item, k);
      MergeTotal(items, item, k);
    } else {
      AppendTotals(items, item);
    }
  }

  lemma MergeCount(items: seq<CartItem>, item: CartItem, k: nat)
    requires k < |items| && k == FindIndex(items, item.id)
    ensures ItemCount(AddToCart(items, item)) == ItemCount(items) + item.quantity
  {
    RaiseTotals(items, k, item.quantity);
    MergeShape(items, item, k);
  }

  lemma MergeTotal(items: seq<CartItem>, item: CartItem, k: nat)
    requires k < |items| && k == FindIndex(items, item.id)
    ensures CartTotal(AddToCart(items, item)) == CartTotal(items) + item.quantity * items[k].price
  {
    RaiseTotals(items, k, item.quantity);
    MergeShape(items, item, k);
  }

  /** Raising one entry's quantity by q raises the count by q and the total by q times its price. */
  lemma RaiseTotals(items: seq<CartItem>, k: nat, q: int)
    requires k < |items|
    ensures ItemCount(items[k := items[k].(quantity := items[k].quantity + q)]) == ItemCount(items) + q
    ensures CartTotal(items[k := items[k].(quantity := items[k].quantity + q)]) == CartTotal(items) + q * items[k].price
  {
    var x := items[k];
    var m := x.(quantity := x.quantity + q);
    TotalsUpdate(items, k, m);
    MergedLine(x, q);
  }

  /** Raising an entry's quantity by q raises its line total by q times its price. */
  lemma MergedLine(x: CartItem, q: int)
    ensures var m := x.(quantity := x.quantity + q);
      m.price * m.quantity == x.price * x.quantity + q * x.price
  {
    var m := x.(quantity := x.quantity + q);
    assert m.price == x.price && m.quantity == x.quantity + q;
    Distribute(x.price, x.quantity, q);
  }

  /** With a known id, addToCart is a single-entry update. */
  lemma MergeShape(items: seq<CartItem>, item: CartItem, k: nat)
    requires k < |items| && k == FindIndex(items, item.id)
    ensures AddToCart(items, item) == items[k := items[k].(quantity := items[k].quantity + item.quantity)]
  {
    var r := AddToCart(items, item);
    var u := items[k := items[k].(quantity := items[k].quantity + item.quantity)];
    assert |r| == |u|;
    forall j | 0 <= j < |r| ensures r[j] == u[j] {
    }
  }

  lemma Distribute(p: int, a: int, b: int)
    ensures p * (a + b) == p * a + b * p
  {
  }

  lemma AppendTotals(items: seq<CartItem>, item: CartItem)
    requires FindIndex(items, item.id) < 0
    ensures ItemCount(AddToCart(items, item)) == ItemCount(items) + item.quantity
    ensures CartTotal(AddToCart(items, item)) == CartTotal(items) + item.quantity * item.price
  {
    assert AddToCart(items, item) == items + [item];
    TotalsConcat(items, [item]);
    assert CartTotal([item]) == item.price * item.quantity;
  }

  /** Adding keeps ids unique. */
  lemma AddToCartKeepsIdsUnique(items: seq<CartItem>, item: CartItem)
    requires UniqueIds(items)
    ensures UniqueIds(AddToCart(items, item))
  {
  }

  /** Removing keeps ids unique. */
  lemma {:induction false} RemoveKeepsIdsUnique(items: seq<CartItem>, id: string)
    requires UniqueIds(items)
    ensures UniqueIds(RemoveFromCart(items, id))
  {
    if items != [] {
      RemoveKeepsIdsUnique(items[1..], id);
      var rest := RemoveFromCart(items[1..], id);
      forall x | x in rest
        ensures x.id != items[0].id
      {
        assert x in items[1..];
      }
    }
  }

  /** With unique ids, setting a positive quantity for a present id changes the count by the difference. */
  lemma UpdateQuantityCount(items: seq<CartItem>, k: nat, q: int)
    requires UniqueIds(items) && k < |items| && q > 0
    ensures ItemCount(UpdateQuantity(items, items[k].id, q)) == ItemCount(items) - items[k].quantity + q
  {
    var r := UpdateQuantity(items, items[k].id, q);
    assert r == items[k := items[k].(quantity := q)];
    TotalsUpdate(items, k, items[k].(quantity := q));
  }

  /** Every entry has a positive quantity. */
  predicate PositiveQuantities(items: seq<CartItem>) {
    forall k :: 0 <= k < |items| ==> items[k].quantity > 0
  }

  /** The cart operations keep quantities positive when items are added with positive quantities. */
  lemma OperationsKeepQuantitiesPositive(items: seq<CartItem>, item: CartItem, id: string, q: int)
    requires PositiveQuantities(items)
    ensures item.quantity > 0 ==> PositiveQuantities(AddToCart(items, item))
    ensures PositiveQuantities(RemoveFromCart(items, id))
    ensures PositiveQuantities(UpdateQuantity(items, id, q))
  {
    var removed := RemoveFromCart(items, id);
    forall k | 0 <= k < |removed|
      ensures removed[k].quantity > 0
    {
      assert removed[k] in items;
    }
  }

  /** With positive quantities, the count is positive exactly when the cart has an entry. */
  lemma {:induction false} CountPositiveIffNonEmpty(items: seq<CartItem>)
    requires PositiveQuantities(items)
    ensures ItemCount(items) > 0 <==> |items| > 0
    ensures ItemCount(items) >= |items|
  {
    if items != [] {
      CountPositiveIffNonEmpty(items[1..]);
    }
  }
}

=== FILE: home_page.dfy ===
/**
 * The home page's two timers: the deal-of-the-day countdown, kept as
 * "HH:MM:SS" text and stepped once a second, and the featured-product
 * slideshow index, moved by the arrows and by the auto-advance timer.
 */
module HomePage {
  import opened Options
  import opened Text

  datatype Clock = Clock(hours: nat, minutes: nat, seconds: nat)

  /** The remaining time in seconds. */
  function TotalSeconds(t: Clock): nat {
    t.hours * 3600 + t.minutes * 60 + t.seconds
  }

  /** Minutes and seconds both below 60. */
  predicate Normal(t: Clock) {
    t.minutes < 60 && t.seconds < 60
  }

  /** The normal clock showing n seconds. */
  function FromSeconds(n: nat): (t: Clock)
    ensures Normal(t) && TotalSeconds(t) == n
  {
    Clock(n / 3600, (n % 3600) / 60, n % 60)
  }

  /** One countdown step; None when the hours would go negative and the timer is cleared. */
  function Tick(t: Clock): (r: Option<Clock>)
    ensures t.seconds > 0 ==> r == Some(t.(seconds := t.seconds - 1))
    ensures t.seconds == 0 && t.minutes > 0 ==> r == Some(Clock(t.hours, t.minutes - 1, 59))
    ensures t.seconds == 0 && t.minutes == 0 && t.hours > 0 ==> r == Some(Clock(t.hours - 1, 59, 59))
    ensures r.None? <==> t == Clock(0, 0, 0)
  {
    var seconds: int := t.seconds - 1;
    var minutes: int := t.minutes;
    var hours: int := t.hours;
    var (seconds', minutes') := if seconds < 0 then (59, minutes - 1) else (seconds, minutes);
    var (minutes'', hours') := if minutes' < 0 then (59, hours - 1) else (minutes', hours);
    if hours' < 0 then None else Some(Clock(hours', minutes'', seconds'))
  }

  /** On a normal clock a tick takes away exactly one second, and the stop comes only at zero. */
  lemma TickIsOneSecond(t: Clock)
    requires Normal(t) && TotalSeconds(t) > 0
    ensures Tick(t) == Some(FromSeconds(TotalSeconds(t) - 1))
  {
    var r := Tick(t).value;
    assert Normal(r) && TotalSeconds(r) == TotalSeconds(t) - 1;
    ClockOfSeconds(r);
  }

  /** A normal clock is determined by its number of seconds. */
  lemma ClockOfSeconds(t: Clock)
    requires Normal(t)
    ensures FromSeconds(TotalSeconds(t)) == t
  {
    var n := TotalSeconds(t);
    var withinHour := t.minutes * 60 + t.seconds;
    assert 0 <= withinHour < 3600;
    assert n == t.hours * 3600 + withinHour;
    assert n / 3600 == t.hours && n % 3600 == withinHour;
    assert withinHour / 60 == t.minutes;
    assert n == (t.hours * 60 + t.minutes) * 60 + t.seconds;
    assert n % 60 == t.seconds;
  }

  // ------------------------------------------------------------ text form

  /**
   * The countdown text: each field padded to two digits, joined by ':'. The
   * padded fields hold no ':', so splitting the text gives exactly the three fields.
   */
  function Format(t: Clock): (text: string)
    ensures Split(text, ':') == [Pad2(t.hours), Pad2(t.minutes), Pad2(t.seconds)]
  {
    var h, m, s := Pad2(t.hours), Pad2(t.minutes), Pad2(t.seconds);
    NoColonInDigits(h);
    NoColonInDigits(m);
    NoColonInDigits(s);
    SplitThree(h, m, s);
    h + ":" + m + ":" + s
  }

  /**
   * split(':').map(Number) destructured into the first three fields: a clock
   * exactly when the first three fields are non-empty digit runs (later fields
   * are ignored), holding their decimal values.
   */
  function Parse(text: string): (r: Option<Clock>)
    ensures r.Some? <==> (|Split(text, ':')| >= 3 &&
      forall k :: 0 <= k < 3 ==> |Split(text, ':')[k]| > 0 && AllDigits(Split(text, ':')[k]))
    ensures r.Some? ==> var p := Split(text, ':');
      r.value == Clock(DigitsValue(p[0]), DigitsValue(p[1]), DigitsValue(p[2]))
  {
    var parts := Split(text, ':');
    if |parts| < 3 then None
    else
      match (ParseNumber(parts[0]), ParseNumber(parts[1]), ParseNumber(parts[2]))
      case (Some(h), Some(m), Some(s)) => Some(Clock(h, m, s))
      case _ => None
  }

  lemma NoColonInDigits(s: string)
    requires AllDigits(s)
    ensures ':' !in s
  {
  }

  /** Three colon-free fields joined by ':' split back into those fields. */
  lemma SplitThree(h: string, m: string, s: string)
    requires ':' !in h && ':' !in m && ':' !in s
    ensures Split(h + ":" + m + ":" + s, ':') == [h, m, s]
  {
    assert h + ":" + m + ":" + s == h + [':'] + (m + [':'] + s);
    SplitAtFirst(h, m + [':'] + s, ':');
    SplitAtFirst(m, s, ':');
    SplitNoSeparator(s, ':');
  }

  /** Three non-empty digit runs joined by ':' read as the clock of their values. */
  lemma ParseDigitFields(h: string, m: string, s: string)
    requires |h| > 0 && |m| > 0 && |s| > 0
    requires AllDigits(h) && AllDigits(m) && AllDigits(s)
    ensures Parse(h + ":" + m + ":" + s) == Some(Clock(DigitsValue(h), DigitsValue(m), DigitsValue(s)))
  {
    NoColonInDigits(h);
    NoColonInDigits(m);
    NoColonInDigits(s);
    SplitThree(h, m, s);
  }

  /** Destructuring takes only the first three fields: anything after a third ':' is ignored. */
  lemma ParseIgnoresLaterFields(h: string, m: string, s: string, rest: string)
    requires ':' !in h && ':' !in m && ':' !in s
    ensures Parse(h + ":" + m + ":" + s + ":" + rest) == Parse(h + ":" + m + ":" + s)
  {
    var long := h + ":" + m + ":" + s + ":" + rest;
    assert long == h + [':'] + (m + [':'] + (s + [':'] + rest));
    SplitAtFirst(h, m + [':'] + (s + [':'] + rest), ':');
    SplitAtFirst(m, s + [':'] + rest, ':');
    SplitAtFirst(s, rest, ':');
    SplitThree(h, m, s);
    assert Split(long, ':')[..3] == [h, m, s];
  }

  /** Reading back a formatted clock gives the same three numbers. */
  lemma ParseFormat(t: Clock)
    ensures Parse(Format(t)) == Some(t)
  {
  }

  /** Unpadded text such as "5:3:7" reads the same as the padded "05:03:07". */
  lemma UnpaddedReadsAsPadded(t: Clock)
    ensures Parse(NatToString(t.hours) + ":" + NatToString(t.minutes) + ":" + NatToString(t.seconds)) == Some(t)
    ensures Parse(NatToString(t.hours) + ":" + NatToString(t.minutes) + ":" + NatToString(t.seconds)) == Parse(Format(t))
  {
    NatToStringValue(t.hours);
    NatToStringValue(t.minutes);
    NatToStringValue(t.seconds);
    ParseDigitFields(NatToString(t.hours), NatToString(t.minutes), NatToString(t.seconds));
    ParseFormat(t);
  }

  /** The deal's starting text "23:59:59" is one the countdown can read. */
  lemma DealStartParses()
    ensures Parse("23:59:59") == Some(Clock(23, 59, 59))
  {
    assert NatToString(23) == "23" by { assert NatToString(2) == "2"; }
    assert NatToString(59) == "59" by { assert NatToString(5) == "5"; }
    assert Format(Clock(23, 59, 59)) == "23:59:59";
    ParseFormat(Clock(23, 59, 59));
  }

  /** The interval callback: parse, step, and format the new text; None when the timer is cleared. */
  function TickText(text: string): (r: Option<string>)
    requires Parse(text).Some?
    ensures r.None? <==> Parse(text).value == Clock(0, 0, 0)
    ensures r.Some? ==> Parse(r.value) == Tick(Parse(text).value)
  {
    match Tick(Parse(text).value)
    case None => None
    case Some(next) => ParseFormat(next); Some(Format(next))
  }

  /** From the text of a normal clock with time left, the next text reads back as one second less. */
  lemma TickTextCountsDown(t: Clock)
    requires Normal(t) && TotalSeconds(t) > 0
    ensures Parse(Format(t)).Some?
    ensures var r := TickText(Format(t));
      r.Some? && Parse(r.value).Some? && TotalSeconds(Parse(r.value).value) == TotalSeconds(t) - 1
  {
    ParseFormat(t);
    TickIsOneSecond(t);
    ParseFormat(FromSeconds(TotalSeconds(t) - 1));
  }

  /** At 00:00:00 the timer is cleared and no new text is produced. */
  lemma TickTextStopsAtZero()
    ensures Parse(Format(Clock(0, 0, 0))).Some? && TickText(Format(Clock(0, 0, 0))).None?
  {
    ParseFormat(Clock(0, 0, 0));
  }

  // ------------------------------------------------------------ slideshow

  /** nextSlide and the auto-advance updater: the last index wraps to 0. */
  function NextSlide(i: int, count: int): (j: int)
    ensures 0 <= i < count ==> 0 <= j < count
    ensures 0 <= i < count ==> j == (i + 1) % count
  {
    if i == count - 1 then
      ModShift(0, count); 0
    else
      ModShift(i + 1, count); i + 1
  }

  /** prevSlide: index 0 wraps to the last index. */
  function PrevSlide(i: int, count: int): (j: int)
    ensures 0 <= i < count ==> 0 <= j < count
    ensures 0 <= i < count ==> j == (i + count - 1) % count
  {
    if i == 0 then
      ModShift(count - 1, count); count - 1
    else
      ModShift(i - 1, count); i - 1
  }

  /** A residue below n is its own remainder, also after adding n once. */
  lemma ModShift(a: int, n: int)
    ensures 0 <= a < n ==> a % n == a && (a + n) % n == a
  {
  }

  /** On a non-empty slideshow the two arrows undo each other. */
  lemma SlidesInverse(i: int, count: int)
    requires 0 <= i < count
    ensures PrevSlide(NextSlide(i, count), count) == i
    ensures NextSlide(PrevSlide(i, count), count) == i
  {
  }
}

=== FILE: navbar.dfy ===
/**
 * The navigation bar: the sidebar's subcategory links (lower-cased names with
 * whitespace runs turned into '-'), the per-category open/closed toggle, and
 * the cart badge and empty-cart message.
 */
module Navbar {
  import opened Text
  import Cart

  /** Drop the leading whitespace of s. */
  function DropSpaces(s: string): (r: string)
    ensures |r| <= |s| && r == s[|s| - |r|..]
    ensures r == [] || !IsSpace(r[0])
    ensures forall k :: 0 <= k < |s| - |r| ==> IsSpace(s[k])
  {
    if s != [] && IsSpace(s[0]) then DropSpaces(s[1..]) else s
  }

  /** replace(/\s+/g, '-'): each maximal run of whitespace becomes one '-'. */
  function CollapseSpaces(s: string): (r: string)
    ensures NoSpace(r)
    ensures IsLowerCase(s) ==> IsLowerCase(r)
    decreases |s|
  {
    if s == [] then []
    else if IsSpace(s[0]) then
      var rest := CollapseSpaces(DropSpaces(s[1..]));
      Prepend('-', rest);
      ['-'] + rest
    else
      var rest := CollapseSpaces(s[1..]);
      Prepend(s[0], rest);
      [s[0]] + rest
  }

  lemma Prepend(c: char, s: string)
    ensures !IsSpace(c) && NoSpace(s) ==> NoSpace([c] + s)
    ensures !IsUpper(c) && IsLowerCase(s) ==> IsLowerCase([c] + s)
  {
    var t := [c] + s;
    assert forall k :: 1 <= k < |t| ==> t[k] == s[k - 1];
  }

  /** The URL segment for a category or subcategory name. */
  function Slug(name: string): (r: string)
    ensures NoSpace(r) && IsLowerCase(r)
  {
    CollapseSpaces(ToLower(name))
  }

  /** Text without whitespace passes through the collapsing step unchanged. */
  lemma {:induction false} CollapseNoSpace(s: string)
    requires NoSpace(s)
    ensures CollapseSpaces(s) == s
  {
    if s != [] {
      CollapseNoSpace(s[1..]);
      assert [s[0]] + s[1..] == s;
    }
  }

  /**
   * The collapsing step replaces a whole whitespace run w, between text a
   * without whitespace and text b that does not start with whitespace, by a
   * single '-'.
   */
  lemma CollapseRun(a: string, w: string, b: string)
    requires NoSpace(a) && |w| > 0 && forall k :: 0 <= k < |w| ==> IsSpace(w[k])
    requires b == [] || !IsSpace(b[0])
    ensures CollapseSpaces(a + w + b) == a + "-" + CollapseSpaces(b)
  {
    assert a + w + b == a + (w + b);
    CollapsePrefix(a, w + b);
    CollapseLeadingRun(w, b);
  }

  /** A whitespace-free prefix passes through the collapsing step unchanged. */
  lemma {:induction false} CollapsePrefix(a: string, r: string)
    requires NoSpace(a)
    ensures CollapseSpaces(a + r) == a + CollapseSpaces(r)
  {
    if a == [] {
      assert a + r == r;
    } else {
      var t := a[1..] + r;
      assert a + r == [a[0]] + t;
      CollapseCons(a[0], t);
      CollapsePrefix(a[1..], r);
      ConsSplit(a, CollapseSpaces(r));
    }
  }

  lemma ConsSplit(a: string, y: string)
    requires a != []
    ensures [a[0]] + (a[1..] + y) == a + y
  {
    assert [a[0]] + a[1..] == a;
  }

  /** A character other than whitespace is kept as it is. */
  lemma CollapseCons(c: char, t: string)
    requires !IsSpace(c)
    ensures CollapseSpaces([c] + t) == [c] + CollapseSpaces(t)
  {
    assert ([c] + t)[1..] == t;
  }

  /** A leading whitespace run becomes one '-'. */
  lemma CollapseLeadingRun(w: string, b: string)
    requires |w| > 0 && forall k :: 0 <= k < |w| ==> IsSpace(w[k])
    requires b == [] || !IsSpace(b[0])
    ensures CollapseSpaces(w + b) == "-" + CollapseSpaces(b)
  {
    var s := w + b;
    assert IsSpace(s[0]);
    assert s[1..] == w[1..] + b;
    DropRun(w[1..], b);
  }

  lemma {:induction false} DropRun(w: string, b: string)
    requires forall k :: 0 <= k < |w| ==> IsSpace(w[k])
    requires b == [] || !IsSpace(b[0])
    ensures DropSpaces(w + b) == b
  {
    if w != [] {
      assert (w + b)[1..] == w[1..] + b;
      DropRun(w[1..], b);
    } else {
      assert w + b == b;
    }
  }

  /** Slugging a slug changes nothing. */
  lemma SlugIdempotent(name: string)
    ensures Slug(Slug(name)) == Slug(name)
  {
    var s := Slug(name);
    ToLowerIdentity(s);
    CollapseNoSpace(s);
  }

  /** The link of a subcategory entry in the sidebar. */
  function SubcategoryLink(category: string, subcategory: string): (url: string)
    ensures NoSpace(url)
    ensures |url| >= 6 && url[..6] == "/shop/"
  {
    var a, b := Slug(category), Slug(subcategory);
    assert NoSpace("/shop/") && NoSpace("/");
    NoSpaceConcat("/shop/", a);
    NoSpaceConcat("/shop/" + a, "/");
    NoSpaceConcat("/shop/" + a + "/", b);
    assert ("/shop/" + a + "/" + b)[..6] == "/shop/";
    "/shop/" + a + "/" + b
  }

  /** Collapsing whitespace writes only '-' of its own, so any other absent character stays absent. */
  lemma {:induction false} CollapseKeepsOut(s: string, x: char)
    requires x != '-' && x !in s
    ensures x !in CollapseSpaces(s)
    decreases |s|
  {
    if s != [] {
      if IsSpace(s[0]) {
        var d := DropSpaces(s[1..]);
        assert x !in d by { assert d == s[1..][|s[1..]| - |d|..]; }
        CollapseKeepsOut(d, x);
      } else {
        assert x !in s[1..];
        CollapseKeepsOut(s[1..], x);
      }
    }
  }

  /** A name without '/' gives a slug without '/': each name stays one path segment. */
  lemma SlugNoSlash(name: string)
    requires '/' !in name
    ensures '/' !in Slug(name)
  {
    var l := ToLower(name);
    assert '/' !in l by {
      forall i | 0 <= i < |l|
        ensures l[i] != '/'
      {
        assert name[i] != '/';
      }
    }
    CollapseKeepsOut(l, '/');
  }

  /** A '/'-separated path of '/'-free words splits back into those words. */
  lemma SplitPath(p: string, q: string, a: string, b: string)
    requires '/' !in p && '/' !in q && '/' !in a && '/' !in b
    ensures Split(p + "/" + q + "/" + a + "/" + b, '/') == [p, q, a, b]
  {
    var tail := a + ['/'] + b;
    var mid := q + ['/'] + tail;
    assert p + "/" + q + "/" + a + "/" + b == p + ['/'] + mid;
    SplitAtFirst(p, mid, '/');
    SplitAtFirst(q, tail, '/');
    SplitAtFirst(a, b, '/');
    SplitNoSeparator(b, '/');
  }

  /** Splitting a subcategory link at '/' gives back the two slugs as its path segments. */
  lemma SubcategoryLinkSegments(category: string, subcategory: string)
    requires '/' !in category && '/' !in subcategory
    ensures Split(SubcategoryLink(category, subcategory), '/') == ["", "shop", Slug(category), Slug(subcategory)]
  {
    var a, b := Slug(category), Slug(subcategory);
    SlugNoSlash(category);
    SlugNoSlash(subcategory);
    assert '/' !in "shop";
    SplitPath("", "shop", a, b);
    assert "" + "/" + "shop" + "/" + a + "/" + b == "/shop/" + a + "/" + b;
  }

  /** Two words without whitespace, separated by one space, become the lower-cased words joined by '-'. */
  lemma SlugTwoWords(a: string, b: string)
    requires NoSpace(a) && NoSpace(b)
    ensures Slug(a + " " + b) == ToLower(a) + "-" + ToLower(b)
  {
    var la, lb := ToLower(a), ToLower(b);
    ToLowerConcat(a + " ", b);
    ToLowerConcat(a, " ");
    assert ToLower(" ") == " ";
    assert NoSpace(la) && NoSpace(lb);
    CollapseRun(la, " ", lb);
    CollapseNoSpace(lb);
  }

  /** Worked case: "Gaming PCs" becomes "gaming-pcs". */
  lemma GamingPcsSlug()
    ensures Slug("Gaming PCs") == "gaming-pcs"
  {
    SlugTwoWords("Gaming", "PCs");
    assert "Gaming" + " " + "PCs" == "Gaming PCs";
    assert ToLower("Gaming") == "gaming";
    assert ToLower("PCs") == "pcs";
  }

  // ------------------------------------------------------------ toggles

  /** A category's sub-list is open when its key is set to true; a missing key reads as closed. */
  predicate IsOpen(open: map<string, bool>, c: string) {
    c in open && open[c]
  }

  /** toggleCategory: negate one key, copying the rest. */
  function ToggleCategory(open: map<string, bool>, c: string): (r: map<string, bool>)
    ensures IsOpen(r, c) == !IsOpen(open, c)
    ensures r.Keys == open.Keys + {c}
    ensures forall k :: k in open && k != c ==> r[k] == open[k]
  {
    open[c := !(c in open && open[c])]
  }

  /** Toggling twice restores what every key reads as. */
  lemma ToggleTwice(open: map<string, bool>, c: string, k: string)
    ensures IsOpen(ToggleCategory(ToggleCategory(open, c), c), k) == IsOpen(open, k)
  {
  }

  // ------------------------------------------------------------ cart widgets

  /** The badge over the cart icon is rendered when the item count is positive. */
  predicate BadgeShown(items: seq<Cart.CartItem>) {
    Cart.ItemCount(items) > 0
  }

  /** The dropdown says the cart is empty when there are no entries. */
  predicate EmptyMessageShown(items: seq<Cart.CartItem>) {
    |items| == 0
  }

  /** With positive quantities, exactly one of the badge and the empty message is shown. */
  lemma BadgeXorEmptyMessage(items: seq<Cart.CartItem>)
    requires Cart.PositiveQuantities(items)
    ensures BadgeShown(items) <==> !EmptyMessageShown(items)
  {
    Cart.CountPositiveIffNonEmpty(items);
  }
}

=== FILE: options.dfy ===
/** The optional value used wherever the source has a value-or-null. */
module Options {

  datatype Option<+T> = None | Some(value: T)
}

=== FILE: parts.dfy ===
/**
 * The eight part categories of a PC build, a selected part, and a build
 * selection that holds at most one part per category. The server and the
 * build wizard share these category ids and display names.
 */
module Parts {
  import opened Options

  datatype Category = Cpu | Motherboard | Ram | Gpu | Storage | Cooler | Psu | Case

  /** The categories in the wizard's order. */
  const AllCategories: seq<Category> := [Cpu, Motherboard, Ram, Gpu, Storage, Cooler, Psu, Case]

  /** The key a category has in the JSON selection and in the wizard. */
  function Id(c: Category): string {
    match c
    case Cpu => "cpu"
    case Motherboard => "motherboard"
    case Ram => "ram"
    case Gpu => "gpu"
    case Storage => "storage"
    case Cooler => "cooler"
    case Psu => "psu"
    case Case => "case"
  }

  /** The human-readable name shown for a category. */
  function DisplayName(c: Category): string {
    match c
    case Cpu => "Processor"
    case Motherboard => "Motherboard"
    case Ram => "Memory"
    case Gpu => "Graphics Card"
    case Storage => "Storage"
    case Cooler => "CPU Cooler"
    case Psu => "Power Supply"
    case Case => "Case"
  }

  /** Every category is listed exactly once, so positions and categories correspond. */
  lemma AllCategoriesComplete(c: Category)
    ensures c in AllCategories
  {
  }

  /** Each category is listed once. */
  lemma AllCategoriesDistinct()
    ensures forall i, j :: 0 <= i < j < |AllCategories| ==> AllCategories[i] != AllCategories[j]
  {
  }

  /** The category whose id is the given text, if any. */
  function FromId(id: string): (r: Option<Category>)
    ensures r.Some? ==> Id(r.value) == id
    ensures r.None? ==> forall c :: Id(c) != id
  {
    if id == "cpu" then Some(Cpu)
    else if id == "motherboard" then Some(Motherboard)
    else if id == "ram" then Some(Ram)
    else if id == "gpu" then Some(Gpu)
    else if id == "storage" then Some(Storage)
    else if id == "cooler" then Some(Cooler)
    else if id == "psu" then Some(Psu)
    else if id == "case" then Some(Case)
    else None
  }

  /** Ids are distinct: reading back the id of a category gives that category. */
  lemma FromIdOfId(c: Category)
    ensures FromId(Id(c)) == Some(c)
  {
  }

  /** The server's lookup table from category id to display name. */
  const CategoryMap: map<string, string> := map[
    "cpu" := "Processor",
    "motherboard" := "Motherboard",
    "ram" := "Memory",
    "gpu" := "Graphics Card",
    "storage" := "Storage",
    "cooler" := "CPU Cooler",
    "psu" := "Power Supply",
    "case" := "Case"
  ]

  /**
   * getCategoryName: a known id gives its display name; any other id is
   * returned unchanged (the table has no empty names, so the `||` fallback
   * fires only for unknown ids).
   */
  function CategoryName(id: string): (name: string)
    ensures forall c :: Id(c) == id ==> name == DisplayName(c)
    ensures (forall c :: Id(c) != id) ==> name == id
  {
    CategoryMapKeysAreIds(id);
    if id in CategoryMap && CategoryMap[id] != "" then CategoryMap[id] else id
  }

  lemma CategoryMapKeysAreIds(id: string)
    ensures id in CategoryMap ==> FromId(id).Some?
  {
    assert CategoryMap.Keys == {"cpu", "motherboard", "ram", "gpu", "storage", "cooler", "psu", "case"};
  }

  /** A component as the validator and the wizard see it. Prices are in cents. */
  datatype Part = Part(
    name: string,
    price: nat,
    socket: string,
    specs: string,
    memoryType: string,
    formFactor: string,
    wattage: nat)

  /** A build selection: each category holds a part or nothing. */
  datatype Selection = Selection(
    cpu: Option<Part>,
    motherboard: Option<Part>,
    ram: Option<Part>,
    gpu: Option<Part>,
    storage: Option<Part>,
    cooler: Option<Part>,
    psu: Option<Part>,
    pcCase: Option<Part>)
  {
    /** The entry for one category. */
    function Get(c: Category): Option<Part> {
      match c
      case Cpu => cpu
      case Motherboard => motherboard
      case Ram => ram
      case Gpu => gpu
      case Storage => storage
      case Cooler => cooler
      case Psu => psu
      case Case => pcCase
    }

    /** The selection with the entry for c replaced; every other entry is kept. */
    function With(c: Category, p: Option<Part>): (s: Selection)
      ensures s.Get(c) == p
      ensures forall d :: d != c ==> s.Get(d) == Get(d)
    {
      match c
      case Cpu => this.(cpu := p)
      case Motherboard => this.(motherboard := p)
      case Ram => this.(ram := p)
      case Gpu => this.(gpu := p)
      case Storage => this.(storage := p)
      case Cooler => this.(cooler := p)
      case Psu => this.(psu := p)
      case Case => this.(pcCase := p)
    }
  }

  /** The wizard's initial selection: every category maps to null. */
  function InitialSelection(): (s: Selection)
    ensures forall c :: s.Get(c) == None
  {
    Selection(None, None, None, None, None, None, None, None)
  }
}

=== FILE: products.dfy ===
/**
 * The product listing page: the category buttons, the search/category filter
 * and the sort options, and the stock label of a product card. Prices are in
 * cents and ratings in tenths of a star.
 */
module Products {
  import opened Options
  import opened Text

  datatype Product = Product(id: string, name: string, category: string, price: int, rating: int, stock: int)

  predicate NoDuplicates(xs: seq<string>) {
    forall i, j :: 0 <= i < j < |xs| ==> xs[i] != xs[j]
  }

  /** The position where x first occurs in xs. */
  function FirstPos(xs: seq<string>, x: string): (k: nat)
    requires x in xs
    ensures k < |xs| && xs[k] == x && x !in xs[..k]
  {
    if xs[0] == x then 0
    else
      var k := FirstPos(xs[1..], x);
      assert xs[..k + 1] == [xs[0]] + xs[1..][..k];
      k + 1
  }

  /** A position holding x with no x before it is the first position of x. */
  lemma {:induction false} FirstPosUnique(zs: seq<string>, x: string, k: nat)
    requires k < |zs| && zs[k] == x && x !in zs[..k]
    ensures FirstPos(zs, x) == k
  {
    if k > 0 {
      assert zs[0] == zs[..k][0];
      assert zs[1..][..k - 1] == zs[..k][1..];
      FirstPosUnique(zs[1..], x, k - 1);
    }
  }

  /** The position of a first occurrence does not move when text is appended. */
  lemma FirstPosAppend(xs: seq<string>, ys: seq<string>, x: string)
    requires x in xs
    ensures x in xs + ys && FirstPos(xs + ys, x) == FirstPos(xs, x)
  {
    var k := FirstPos(xs, x);
    assert (xs + ys)[..k] == xs[..k];
    FirstPosUnique(xs + ys, x, k);
  }

  /** The elements of a Set built from xs, in insertion (first occurrence) order. */
  function Distinct(xs: seq<string>): (r: seq<string>)
    ensures forall x :: x in r <==> x in xs
    ensures NoDuplicates(r)
    ensures forall i, j :: 0 <= i < j < |r| ==> FirstPos(xs, r[i]) < FirstPos(xs, r[j])
  {
    if xs == [] then []
    else
      var init := xs[..|xs| - 1];
      var last := xs[|xs| - 1];
      assert xs == init + [last];
      var r := Distinct(init);
      forall x | x in init
        ensures FirstPos(xs, x) == FirstPos(init, x)
      {
        FirstPosAppend(init, [last], x);
      }
      if last in init then r
      else
        assert FirstPos(xs, last) == |init|;
        r + [last]
  }

  function Categories(ps: seq<Product>): (cs: seq<string>)
    ensures |cs| == |ps| && forall k :: 0 <= k < |ps| ==> cs[k] == ps[k].category
  {
    seq(|ps|, k requires 0 <= k < |ps| => ps[k].category)
  }

  /**
   * The category buttons: "All", then each product category once, in order
   * of first appearance. "All" is repeated only if a product's category is
   * literally "All", since the set is built from the products alone.
   */
  function CategoryOptions(ps: seq<Product>): (r: seq<string>)
    ensures |r| >= 1 && r[0] == "All"
    ensures forall x :: x in r[1..] <==> exists k :: 0 <= k < |ps| && ps[k].category == x
    ensures NoDuplicates(r[1..])
    ensures NoDuplicates(r) <==> forall k :: 0 <= k < |ps| ==> ps[k].category != "All"
  {
    var r := ["All"] + Distinct(Categories(ps));
    assert r[1..] == Distinct(Categories(ps));
    OptionsDuplicateOnlyAll(ps, r);
    r
  }

  lemma OptionsDuplicateOnlyAll(ps: seq<Product>, r: seq<string>)
    requires r == ["All"] + Distinct(Categories(ps))
    ensures NoDuplicates(r) <==> forall k :: 0 <= k < |ps| ==> ps[k].category != "All"
  {
    var cs := Categories(ps);
    var d := Distinct(cs);
    HeadDuplicate("All", d);
    assert "All" in d <==> "All" in cs;
    assert "All" in cs <==> exists k :: 0 <= k < |ps| && ps[k].category == "All" by {
      if "All" in cs {
        var k :| 0 <= k < |cs| && cs[k] == "All";
        assert ps[k].category == "All";
      }
      if exists k :: 0 <= k < |ps| && ps[k].category == "All" {
        var k :| 0 <= k < |ps| && ps[k].category == "All";
        assert cs[k] == "All";
      }
    }
  }

  /** Putting x in front of a duplicate-free list keeps it duplicate-free iff x is not in it. */
  lemma HeadDuplicate(x: string, d: seq<string>)
    requires NoDuplicates(d)
    ensures NoDuplicates([x] + d) <==> x !in d
  {
    var r := [x] + d;
    if !NoDuplicates(r) {
      var i, j :| 0 <= i < j < |r| && r[i] == r[j];
      assert i == 0 && r[j] == d[j - 1];
    }
    if x in d {
      var j :| 0 <= j < |d| && d[j] == x;
      assert r[0] == r[j + 1];
    }
  }

  // ------------------------------------------------------------ filter

  /**
   * The search and category test of one product. An empty search in "All"
   * lets everything through; a query longer than the name never matches.
   */
  function Matches(p: Product, query: string, selected: string): (b: bool)
    ensures query == "" && selected == "All" ==> b
    ensures b ==> |query| <= |p.name|
  {
    ContainsEmpty(ToLower(p.name));
    && Contains(ToLower(p.name), ToLower(query))
    && (selected == "All" || p.category == selected)
  }

  /** The filter step: the matching products, in their original order. */
  function Filter(ps: seq<Product>, query: string, selected: string): (r: seq<Product>)
    ensures forall p :: p in r <==> p in ps && Matches(p, query, selected)
    ensures |r| <= |ps|
  {
    if ps == [] then []
    else
      var rest := Filter(ps[1..], query, selected);
      assert ps == [ps[0]] + ps[1..];
      if Matches(ps[0], query, selected) then [ps[0]] + rest else rest
  }

  /** When every product matches, filtering keeps the list as it is. */
  lemma {:induction false} FilterAllMatch(ps: seq<Product>, query: string, selected: string)
    requires forall p :: p in ps ==> Matches(p, query, selected)
    ensures Filter(ps, query, selected) == ps
  {
    if ps != [] {
      FilterAllMatch(ps[1..], query, selected);
    }
  }

  /** Filtering works piecewise on a concatenation, so it keeps order and repeats. */
  lemma {:induction false} FilterConcat(a: seq<Product>, b: seq<Product>, query: string, selected: string)
    ensures Filter(a + b, query, selected) == Filter(a, query, selected) + Filter(b, query, selected)
  {
    if a == [] {
      assert a + b == b;
    } else {
      assert (a + b)[1..] == a[1..] + b;
      FilterConcat(a[1..], b, query, selected);
    }
  }

  // ------------------------------------------------------------ sort

  /** The comparator passed to sort: negative puts a first, positive puts b first. */
  function Compare(option: string, a: Product, b: Product): (d: int)
    ensures d < 0 <==> Key(option, a) < Key(option, b)
    ensures d == 0 <==> Key(option, a) == Key(option, b)
  {
    match option
    case "price-low-high" => a.price - b.price
    case "price-high-low" => b.price - a.price
    case "rating" => b.rating - a.rating
    case _ => 0
  }

  /**
   * The comparator of each sort option is key(a) - key(b) for the key below;
   * options other than the three named ones compare everything equal.
   */
  function Key(option: string, p: Product): int {
    if option == "price-low-high" then p.price
    else if option == "price-high-low" then -p.price
    else if option == "rating" then -p.rating
    else 0
  }

  predicate SortedBy(option: string, ps: seq<Product>) {
    forall i, j :: 0 <= i < j < |ps| ==> Key(option, ps[i]) <= Key(option, ps[j])
  }

  /** Insert x before the first element whose key is not smaller, keeping ties in order. */
  function Insert(option: string, x: Product, ys: seq<Product>): (r: seq<Product>)
    requires SortedBy(option, ys)
    ensures SortedBy(option, r)
    ensures multiset(r) == multiset(ys) + multiset{x}
    ensures |r| > 0 && (r[0] == x || (|ys| > 0 && r[0] == ys[0]))
  {
    if ys == [] || Key(option, x) <= Key(option, ys[0]) then
      SortedCons(option, x, ys);
      [x] + ys
    else
      var rest := Insert(option, x, ys[1..]);
      assert ys == [ys[0]] + ys[1..];
      assert Key(option, ys[0]) <= Key(option, rest[0]);
      SortedCons(option, ys[0], rest);
      [ys[0]] + rest
  }

  /** A sorted list stays sorted with an element in front that is not above its head. */
  lemma SortedCons(option: string, y: Product, rest: seq<Product>)
    requires SortedBy(option, rest)
    requires rest == [] || Key(option, y) <= Key(option, rest[0])
    ensures SortedBy(option, [y] + rest)
  {
    var r := [y] + rest;
    forall i, j | 0 <= i < j < |r| ensures Key(option, r[i]) <= Key(option, r[j]) {
      assert r[j] == rest[j - 1];
      if i > 0 {
        assert r[i] == rest[i - 1];
      }
    }
  }

  /** A stable sort by the option's key (Array.prototype.sort is stable). */
  function Sort(option: string, ps: seq<Product>): (r: seq<Product>)
    ensures SortedBy(option, r)
    ensures multiset(r) == multiset(ps)
  {
    if ps == [] then []
    else
      assert ps == [ps[0]] + ps[1..];
      Insert(option, ps[0], Sort(option, ps[1..]))
  }

  /** With a comparator that always answers 0 the stable sort changes nothing. */
  lemma {:induction false} SortAllEqualKeepsOrder(option: string, ps: seq<Product>)
    requires forall p :: Key(option, p) == 0
    ensures Sort(option, ps) == ps
  {
    if ps != [] {
      SortAllEqualKeepsOrder(option, ps[1..]);
    }
  }

  /** filteredProducts: filter, then sort. */
  function FilteredProducts(ps: seq<Product>, query: string, selected: string, option: string): (r: seq<Product>)
    ensures forall p :: p in r ==> p in ps && Matches(p, query, selected)
    ensures multiset(r) == multiset(Filter(ps, query, selected))
    ensures SortedBy(option, r)
  {
    var r := Sort(option, Filter(ps, query, selected));
    assert forall p :: p in r ==> p in multiset(Filter(ps, query, selected));
    r
  }

  /** Each sort option orders the display the way its label says. */
  lemma SortOptionOrders(ps: seq<Product>, query: string, selected: string, option: string)
    ensures var r := FilteredProducts(ps, query, selected, option);
      && (option == "price-low-high" ==> forall i, j :: 0 <= i < j < |r| ==> r[i].price <= r[j].price)
      && (option == "price-high-low" ==> forall i, j :: 0 <= i < j < |r| ==> r[i].price >= r[j].price)
      && (option == "rating" ==> forall i, j :: 0 <= i < j < |r| ==> r[i].rating >= r[j].rating)
  {
    var r := FilteredProducts(ps, query, selected, option);
    assert SortedBy(option, r);
  }

  /** With "featured" the display is the filtered list in its original order, whatever the search. */
  lemma FeaturedKeepsFilterOrder(ps: seq<Product>, query: string, selected: string)
    ensures FilteredProducts(ps, query, selected, "featured") == Filter(ps, query, selected)
  {
    SortAllEqualKeepsOrder("featured", Filter(ps, query, selected));
  }

  /** An empty search, the "All" category and the "featured" option list every product in its original order. */
  lemma DefaultViewIsEverything(ps: seq<Product>)
    ensures FilteredProducts(ps, "", "All", "featured") == ps
  {
    forall p | p in ps
      ensures Matches(p, "", "All")
    {
      ContainsEmpty(ToLower(p.name));
    }
    FilterAllMatch(ps, "", "All");
    SortAllEqualKeepsOrder("featured", ps);
  }

  // ------------------------------------------------------------ stock

  /** The stock line of a product card. */
  function StockLabel(stock: int): (text: string)
    ensures text == "Out of stock" <==> stock <= 0
    ensures stock > 0 ==> text == "In stock (" + NatToString(stock) + ")"
    ensures stock > 0 ==> |text| > 11 && ParseNumber(text[10..|text| - 1]) == Some(stock)
    ensures AddToCartDisabled(stock) ==> text == "Out of stock"
  {
    if stock > 0 then
      var digits := NatToString(stock);
      var text := "In stock (" + digits + ")";
      assert text[0] == 'I';
      assert text[10..|text| - 1] == digits;
      ParseNumberOfNatToString(stock);
      text
    else "Out of stock"
  }

  /** The add-to-cart button is disabled only at a stock of exactly zero. */
  predicate AddToCartDisabled(stock: int) {
    stock == 0
  }

  /** A negative stock reads "Out of stock" yet leaves the button enabled. */
  lemma NegativeStockStillEnabled(stock: int)
    requires stock < 0
    ensures StockLabel(stock) == "Out of stock" && !AddToCartDisabled(stock)
  {
  }
}

=== FILE: signup.dfy ===
/**
 * The sign-up form: the four fields, the validator that decides whether the
 * form may be submitted, and the clearing of a field's error when it is edited.
 */
module SignUp {
  import opened Text

  datatype Field = Username | Email | Password | ConfirmPassword

  datatype Form = Form(username: string, email: string, password: string, confirmPassword: string) {

    function Value(k: Field): string {
      match k
      case Username => username
      case Email => email
      case Password => password
      case ConfirmPassword => confirmPassword
    }

    /** The form with one field's text replaced. */
    function With(k: Field, v: string): (f: Form)
      ensures f.Value(k) == v
      ensures forall j :: j != k ==> f.Value(j) == Value(j)
    {
      match k
      case Username => this.(username := v)
      case Email => this.(email := v)
      case Password => this.(password := v)
      case ConfirmPassword => this.(confirmPassword := v)
    }
  }

  /** Error text per field; an empty text is a cleared error. */
  type Errors = map<Field, string>

  function ErrorText(k: Field): string {
    match k
    case Username => "Username must be at least 3 characters"
    case Email => "Please enter a valid email address"
    case Password => "Password must be at least 8 characters"
    case ConfirmPassword => "Passwords do not match"
  }

  // ------------------------------------------------------------ email shape

  /**
   * What /^\S+@\S+\.\S+$/ accepts, read off the pattern: some non-empty
   * whitespace-free text, an @, more such text, a dot, and more such text.
   */
  ghost predicate MatchesEmailPattern(s: string) {
    exists i, j :: 0 <= i < j <= |s| && EmailSplit(s, i, j)
  }

  /** s[..i] + "@" + s[i+1..j] + "." + s[j+1..] is a split the pattern accepts. */
  ghost predicate EmailSplit(s: string, i: int, j: int)
    requires 0 <= i < j <= |s|
  {
    && j < |s| && s[i] == '@' && s[j] == '.'
    && |s[..i]| > 0 && |s[i + 1..j]| > 0 && |s[j + 1..]| > 0
    && NoSpace(s[..i]) && NoSpace(s[i + 1..j]) && NoSpace(s[j + 1..])
  }

  /** The test the form runs: no whitespace, an @ after the first character, a dot at least two after it and before the last. */
  predicate IsValidEmail(s: string) {
    && NoSpace(s)
    && exists i, j :: 1 <= i && i + 2 <= j && j + 2 <= |s| && s[i] == '@' && s[j] == '.'
  }

  /** The test agrees with the pattern on every string. */
  lemma EmailTestMatchesPattern(s: string)
    ensures IsValidEmail(s) <==> MatchesEmailPattern(s)
  {
    if IsValidEmail(s) {
      var i, j :| 1 <= i && i + 2 <= j && j + 2 <= |s| && s[i] == '@' && s[j] == '.';
      NoSpacePieces(s, i, j);
      assert EmailSplit(s, i, j);
    }
    if MatchesEmailPattern(s) {
      var i, j :| 0 <= i < j <= |s| && EmailSplit(s, i, j);
      forall k | 0 <= k < |s|
        ensures !IsSpace(s[k])
      {
        if k < i {
          assert s[k] == s[..i][k];
        } else if i < k < j {
          assert s[k] == s[i + 1..j][k - i - 1];
        } else if j < k {
          assert s[k] == s[j + 1..][k - j - 1];
        }
      }
    }
  }

  lemma NoSpacePieces(s: string, i: int, j: int)
    requires NoSpace(s) && 0 <= i < j < |s|
    ensures NoSpace(s[..i]) && NoSpace(s[i + 1..j]) && NoSpace(s[j + 1..])
  {
    var middle := s[i + 1..j];
    forall k | 0 <= k < |middle|
      ensures !IsSpace(middle[k])
    {
      assert middle[k] == s[i + 1 + k];
    }
    var last := s[j + 1..];
    forall k | 0 <= k < |last|
      ensures !IsSpace(last[k])
    {
      assert last[k] == s[j + 1 + k];
    }
  }

  // ------------------------------------------------------------ the validator

  datatype Outcome = Outcome(errors: Errors, valid: bool)

  /**
   * validateForm: an error text for each failed check (the map the four
   * `if`s build); valid when none was collected.
   */
  function ValidateForm(f: Form): (r: Outcome)
    ensures Username in r.errors <==> |f.username| < 3
    ensures Email in r.errors <==> !MatchesEmailPattern(f.email)
    ensures Password in r.errors <==> |f.password| < 8
    ensures ConfirmPassword in r.errors <==> f.password != f.confirmPassword
    ensures forall k :: k in r.errors ==> r.errors[k] == ErrorText(k)
    ensures r.valid <==> |f.username| >= 3 && MatchesEmailPattern(f.email) && |f.password| >= 8
                         && f.password == f.confirmPassword
  {
    EmailTestMatchesPattern(f.email);
    var errors := map k | k in AllFields && Fails(f, k) :: ErrorText(k);
    NoKeys(errors);
    Outcome(errors, |errors.Keys| == 0)
  }

  const AllFields: set<Field> := {Username, Email, Password, ConfirmPassword}

  /** The four checks of validateForm, one per field. */
  predicate Fails(f: Form, k: Field) {
    match k
    case Username => |f.username| < 3
    case Email => !IsValidEmail(f.email)
    case Password => |f.password| < 8
    case ConfirmPassword => f.password != f.confirmPassword
  }

  /** An error map is empty exactly when none of the four fields has an entry. */
  lemma NoKeys(e: Errors)
    ensures |e.Keys| == 0 <==> Username !in e && Email !in e && Password !in e && ConfirmPassword !in e
  {
    if e.Keys != {} {
      var k :| k in e.Keys;
      assert k == Username || k == Email || k == Password || k == ConfirmPassword;
    }
  }

  /** The error shown under a field: a set, non-empty error text. */
  predicate ErrorShown(errors: Errors, k: Field) {
    k in errors && errors[k] != ""
  }

  datatype Edit = Edit(form: Form, errors: Errors)

  /** handleChange: store the new text and clear that field's error if one is shown. */
  function HandleChange(f: Form, errors: Errors, k: Field, v: string): (r: Edit)
    ensures r.form.Value(k) == v
    ensures forall j :: j != k ==> r.form.Value(j) == f.Value(j)
    ensures !ErrorShown(r.errors, k)
    ensures r.errors.Keys == errors.Keys
    ensures forall j :: j in errors && j != k ==> r.errors[j] == errors[j]
  {
    var form := f.With(k, v);
    if k in errors && errors[k] != "" then Edit(form, errors[k := ""]) else Edit(form, errors)
  }

  /** Worked cases: a plain address passes; one with a space, or without a dot after the @, fails. */
  lemma EmailCases()
    ensures IsValidEmail("a@b.c")
    ensures !IsValidEmail("a b@c.d")
    ensures !IsValidEmail("a@b")
    ensures !IsValidEmail("@b.c")
  {
    var s := "a@b.c";
    assert s[1] == '@' && s[3] == '.';
    assert !NoSpace("a b@c.d") by { assert IsSpace("a b@c.d"[1]); }
  }
}

=== FILE: text.dfy ===
/**
 * String helpers that stand in for the JavaScript built-ins the front end and
 * the handler call:
 * the regular-expression class \s, toLowerCase (restricted to ASCII),
 * String.prototype.includes, Number.prototype.toString on whole numbers,
 * Number() on digit strings, and String.prototype.split on one character.
 */
module Text {
  import opened Options

  /** The characters JavaScript's \s class matches (ECMAScript WhiteSpace and LineTerminator). */
  predicate IsSpace(c: char) {
    || c == '\t' || c == '\n' || c == '\U{000B}' || c == '\U{000C}' || c == '\r' || c == ' '
    || c == '\U{00A0}' || c == '\U{1680}' || ('\U{2000}' <= c <= '\U{200A}')
    || c == '\U{2028}' || c == '\U{2029}' || c == '\U{202F}' || c == '\U{205F}'
    || c == '\U{3000}' || c == '\U{FEFF}'
  }

  predicate NoSpace(s: string) {
    forall i :: 0 <= i < |s| ==> !IsSpace(s[i])
  }

  /** Text made of two whitespace-free pieces is whitespace-free. */
  lemma NoSpaceConcat(a: string, b: string)
    requires NoSpace(a) && NoSpace(b)
    ensures NoSpace(a + b)
  {
    forall i | 0 <= i < |a + b| ensures !IsSpace((a + b)[i]) {
      if i >= |a| {
        assert (a + b)[i] == b[i - |a|];
      }
    }
  }

  predicate IsUpper(c: char) {
    'A' <= c <= 'Z'
  }

  /** ASCII lower-casing of one character. */
  function Lower(c: char): (d: char)
    ensures !IsUpper(d)
    ensures IsUpper(c) ==> d as int == c as int + 32
    ensures !IsUpper(c) ==> d == c
  {
    if IsUpper(c) then (c as int + 32) as char else c
  }

  /** toLowerCase, restricted to the ASCII letters. */
  function ToLower(s: string): (r: string)
    ensures |r| == |s|
    ensures forall i :: 0 <= i < |s| ==> r[i] == Lower(s[i])
  {
    seq(|s|, i requires 0 <= i < |s| => Lower(s[i]))
  }

  predicate IsLowerCase(s: string) {
    forall i :: 0 <= i < |s| ==> !IsUpper(s[i])
  }

  /** Lower-casing works character by character, so it distributes over concatenation. */
  lemma ToLowerConcat(a: string, b: string)
    ensures ToLower(a + b) == ToLower(a) + ToLower(b)
  {
  }

  /** Lower-casing text that has no upper-case letter leaves it as it is. */
  lemma ToLowerIdentity(s: string)
    requires IsLowerCase(s)
    ensures ToLower(s) == s
  {
  }

  predicate OccursAt(hay: string, needle: string, i: int) {
    0 <= i && i + |needle| <= |hay| && hay[i..i + |needle|] == needle
  }

  /** String.prototype.includes. */
  predicate Contains(hay: string, needle: string) {
    exists i :: 0 <= i <= |hay| && OccursAt(hay, needle, i)
  }

  lemma ContainsSelf(s: string)
    ensures Contains(s, s)
  {
    assert OccursAt(s, s, 0);
  }

  lemma ContainsEmpty(hay: string)
    ensures Contains(hay, "")
  {
    assert OccursAt(hay, "", 0);
  }

  /** Text found in a is found in a followed by anything. */
  lemma ContainsLeft(a: string, b: string, needle: string)
    requires Contains(a, needle)
    ensures Contains(a + b, needle)
  {
    var i :| 0 <= i <= |a| && OccursAt(a, needle, i);
    assert (a + b)[i..i + |needle|] == a[i..i + |needle|];
    assert OccursAt(a + b, needle, i);
  }

  /** Text found in b is found in anything followed by b. */
  lemma ContainsRight(a: string, b: string, needle: string)
    requires Contains(b, needle)
    ensures Contains(a + b, needle)
  {
    var i :| 0 <= i <= |b| && OccursAt(b, needle, i);
    assert (a + b)[|a| + i..|a| + i + |needle|] == b[i..i + |needle|];
    assert OccursAt(a + b, needle, |a| + i);
  }

  // ---------------------------------------------------------------- numbers

  predicate IsDigit(c: char) {
    '0' <= c <= '9'
  }

  predicate AllDigits(s: string) {
    forall i :: 0 <= i < |s| ==> IsDigit(s[i])
  }

  function DigitChar(d: nat): (c: char)
    requires d < 10
    ensures IsDigit(c)
  {
    ('0' as int + d) as char
  }

  function DigitValue(c: char): (d: nat)
    requires IsDigit(c)
    ensures d < 10
  {
    c as int - '0' as int
  }

  /** The value of a string of decimal digits, leading zeros allowed. */
  function DigitsValue(s: string): nat
    requires AllDigits(s)
  {
    if s == [] then 0 else DigitsValue(s[..|s| - 1]) * 10 + DigitValue(s[|s| - 1])
  }

  /** Number.prototype.toString on a whole, non-negative number. */
  function NatToString(n: nat): (s: string)
    ensures 1 <= |s|
    ensures AllDigits(s)
    ensures |s| > 1 ==> s[0] != '0'
    ensures n < 10 <==> |s| == 1
  {
    if n < 10 then [DigitChar(n)] else NatToString(n / 10) + [DigitChar(n % 10)]
  }

  /** Reading back the decimal text of n gives n. */
  lemma {:induction false} NatToStringValue(n: nat)
    ensures DigitsValue(NatToString(n)) == n
  {
    if n >= 10 {
      var s := NatToString(n);
      assert s[..|s| - 1] == NatToString(n / 10);
      NatToStringValue(n / 10);
    }
  }

  /** A zero prefix does not change the value of a digit string. */
  lemma {:induction false} LeadingZeroValue(s: string)
    requires AllDigits(s)
    ensures AllDigits("0" + s) && DigitsValue("0" + s) == DigitsValue(s)
  {
    if s != [] {
      var t := "0" + s;
      assert t[..|t| - 1] == "0" + s[..|s| - 1];
      LeadingZeroValue(s[..|s| - 1]);
    }
  }

  /** Number() applied to text: whole numbers written in decimal digits, None for anything else. */
  function ParseNumber(s: string): (r: Option<nat>)
    ensures r.Some? <==> (|s| > 0 && AllDigits(s))
    ensures r.Some? ==> AllDigits(s) && r.value == DigitsValue(s)
  {
    if |s| > 0 && AllDigits(s) then Some(DigitsValue(s)) else None
  }

  /** Number() reads back the decimal text that toString writes. */
  lemma ParseNumberOfNatToString(n: nat)
    ensures ParseNumber(NatToString(n)) == Some(n)
  {
    NatToStringValue(n);
  }

  /** Number() ignores leading zeros, so "05" and "5" read the same. */
  lemma ParseNumberLeadingZero(s: string, n: nat)
    requires ParseNumber(s) == Some(n)
    ensures ParseNumber("0" + s) == Some(n)
  {
    LeadingZeroValue(s);
  }

  /** padStart(2, '0') applied to the decimal text of n. */
  function Pad2(n: nat): (s: string)
    ensures |s| >= 2 && AllDigits(s)
    ensures ParseNumber(s) == Some(n)
    ensures n >= 10 ==> s == NatToString(n)
    ensures n < 10 ==> s == "0" + NatToString(n)
  {
    var d := NatToString(n);
    NatToStringValue(n);
    if |d| < 2 then (LeadingZeroValue(d); "0" + d) else d
  }

  // ---------------------------------------------------------------- split

  /** String.prototype.split with a one-character separator. */
  function Split(s: string, sep: char): (parts: seq<string>)
    ensures |parts| >= 1
    decreases |s|
  {
    if s == [] then [""]
    else
      var rest := Split(s[1..], sep);
      if s[0] == sep then [""] + rest else [[s[0]] + rest[0]] + rest[1..]
  }

  /** Text with no separator is not cut. */
  lemma {:induction false} SplitNoSeparator(a: string, sep: char)
    requires sep !in a
    ensures Split(a, sep) == [a]
    decreases |a|
  {
    if a != [] {
      SplitNoSeparator(a[1..], sep);
      assert [a[0]] + a[1..] == a;
    }
  }

  /** Splitting cuts at the first separator and splits the remainder. */
  lemma {:induction false} SplitAtFirst(a: string, b: string, sep: char)
    requires sep !in a
    ensures Split(a + [sep] + b, sep) == [a] + Split(b, sep)
    decreases |a|
  {
    if a == [] {
      assert [sep] + b == a + [sep] + b;
      assert ([sep] + b)[1..] == b;
    } else {
      var s := a + [sep] + b;
      assert s[1..] == a[1..] + [sep] + b;
      SplitAtFirst(a[1..], b, sep);
      assert [a[0]] + a[1..] == a;
    }
  }
}

=== FILE: validator.dfy ===
/**
 * The build compatibility validator behind POST /api/validate-compatibility.
 * Four rules are evaluated in a fixed order (socket, memory generation, form
 * factor, power), each contributing at most one issue, and an estimated
 * power draw with a 30% headroom recommendation is always reported.
 */
module Validator {
  import opened Options
  import opened Text
  import opened Parts

  /** One violated rule, carrying the values its message cites. */
  datatype Issue =
    | SocketMismatch(cpuSocket: string, boardSocket: string)
    | MemoryMismatch(ramType: string, boardSupports: string)
    | FormFactorMismatch(boardFormFactor: string, caseFormFactor: string)
    | InsufficientPower(psuWattage: nat, recommended: nat)

  /** The position of each rule in the evaluation order. */
  function Rank(i: Issue): (k: nat)
    ensures k < 4
  {
    match i
    case SocketMismatch(_, _) => 0
    case MemoryMismatch(_, _) => 1
    case FormFactorMismatch(_, _) => 2
    case InsufficientPower(_, _) => 3
  }

  /**
   * The human-readable text the endpoint returns for an issue. Its first letter
   * (C, R, M or P) already tells which rule was violated.
   */
  function Message(i: Issue): (m: string)
    ensures |m| > 0 && m[0] == "CRMP"[Rank(i)]
  {
    match i
    case SocketMismatch(cpu, board) =>
      "CPU socket (" + cpu + ") is not compatible with motherboard socket (" + board + ")"
    case MemoryMismatch(ram, supports) =>
      "RAM type (" + ram + ") is not compatible with motherboard (supports " + supports + ")"
    case FormFactorMismatch(board, pcCase) =>
      "Motherboard form factor (" + board + ") won't fit in " + pcCase + " case"
    case InsufficientPower(psu, recommended) =>
      "Power supply (" + Watts(psu) + ") may be insufficient for your build. Recommended: " + Watts(recommended)
  }

  /** Two issues with the same text were raised by the same rule. */
  lemma MessageTellsRule(i: Issue, j: Issue)
    requires Message(i) == Message(j)
    ensures Rank(i) == Rank(j)
  {
    assert Message(i)[0] == Message(j)[0];
  }

  /** A wattage as the messages print it, e.g. 550W. */
  function Watts(w: nat): string {
    NatToString(w) + "W"
  }

  /** The issues array of the JSON response. */
  function Messages(issues: seq<Issue>): (ms: seq<string>)
    ensures |ms| == |issues|
    ensures forall k :: 0 <= k < |issues| ==> ms[k] == Message(issues[k])
  {
    seq(|issues|, k requires 0 <= k < |issues| => Message(issues[k]))
  }

  /** The response body: compatible, issues, totalWattage, recommendedWattage. */
  datatype Report = Report(compatible: bool, issues: seq<Issue>, totalWattage: nat, recommendedWattage: nat)

  // ------------------------------------------------------------ the rules

  predicate SocketRuleFails(s: Selection) {
    s.cpu.Some? && s.motherboard.Some? && s.cpu.value.socket != s.motherboard.value.socket
  }

  /** The board takes the RAM when its specs text names the RAM's generation (DDR5 or DDR4). */
  predicate SupportsMemory(board: Part, ram: Part) {
    || (Contains(board.specs, "DDR5") && ram.memoryType == "DDR5")
    || (Contains(board.specs, "DDR4") && ram.memoryType == "DDR4")
  }

  predicate MemoryRuleFails(s: Selection) {
    s.ram.Some? && s.motherboard.Some? && !SupportsMemory(s.motherboard.value, s.ram.value)
  }

  /**
   * The generation the memory message says the board supports: DDR5 when the
   * specs mention DDR5, otherwise DDR4 (even when they mention neither).
   */
  function Advertised(board: Part): (g: string)
    ensures g == "DDR5" || g == "DDR4"
    ensures g == "DDR5" <==> Contains(board.specs, "DDR5")
    ensures Contains(board.specs, "DDR5") || Contains(board.specs, "DDR4") ==> Contains(board.specs, g)
  {
    if Contains(board.specs, "DDR5") then "DDR5" else "DDR4"
  }

  /** The only form-factor clash the rule table knows: an ATX board in a Micro-ATX case. */
  predicate FormFactorRuleFails(s: Selection) {
    && s.pcCase.Some? && s.motherboard.Some?
    && s.pcCase.value.formFactor == "Micro-ATX" && s.motherboard.value.formFactor == "ATX"
  }

  predicate PowerRuleFails(s: Selection) {
    s.psu.Some? && s.psu.value.wattage < Recommended(TotalWattage(s))
  }

  // ------------------------------------------------------------ power estimate

  /** Flat draw allowed for the rest of the system. */
  const BaseAllowance: nat := 50

  /** What one selected part adds to the estimate: its own wattage for CPU and GPU, flat amounts for RAM and storage. */
  function Allowance(c: Category, p: Part): nat {
    match c
    case Cpu => p.wattage
    case Gpu => p.wattage
    case Ram => 10
    case Storage => 15
    case _ => 0
  }

  /** Sum of the allowances of the selected parts among the categories cs. */
  function AllowanceSum(s: Selection, cs: seq<Category>): nat {
    if cs == [] then 0
    else
      Contribution(s, cs[0]) + AllowanceSum(s, cs[1..])
  }

  /** Math.round(total * 1.3): the integer nearest to 1.3 * total, halves rounded up. */
  function Recommended(total: nat): (r: nat)
    ensures 13 * total - 5 < 10 * r <= 13 * total + 5
    ensures total <= r
  {
    (13 * total + 5) / 10
  }

  /** Rounding after scaling keeps the order of the draws. */
  lemma RecommendedMonotone(t1: nat, t2: nat)
    requires t1 <= t2
    ensures Recommended(t1) <= Recommended(t2)
  {
  }

  /** What the selection holds for c contributes to the estimate. */
  function Contribution(s: Selection, c: Category): nat {
    match s.Get(c) case Some(p) => Allowance(c, p) case None => 0
  }

  lemma AllowanceSumOfAll(s: Selection)
    ensures AllowanceSum(s, AllCategories)
         == Contribution(s, Cpu) + Contribution(s, Gpu) + Contribution(s, Ram) + Contribution(s, Storage)
  {
    var cs := AllCategories;
    assert cs[1..] == [Motherboard, Ram, Gpu, Storage, Cooler, Psu, Case];
    assert cs[2..] == [Ram, Gpu, Storage, Cooler, Psu, Case];
    assert cs[3..] == [Gpu, Storage, Cooler, Psu, Case];
    assert cs[4..] == [Storage, Cooler, Psu, Case];
    assert cs[5..] == [Cooler, Psu, Case];
    assert cs[6..] == [Psu, Case];
    assert cs[7..] == [Case];
    assert AllowanceSum(s, cs[7..]) == 0;
    assert AllowanceSum(s, cs[6..]) == 0;
    assert AllowanceSum(s, cs[5..]) == 0;
    assert AllowanceSum(s, cs[4..]) == Contribution(s, Storage);
    assert AllowanceSum(s, cs[3..]) == Contribution(s, Gpu) + Contribution(s, Storage);
    assert AllowanceSum(s, cs[2..]) == Contribution(s, Ram) + Contribution(s, Gpu) + Contribution(s, Storage);
  }

  /** The estimate, accumulated in the handler's order. */
  function TotalWattage(s: Selection): (w: nat)
    ensures w == BaseAllowance + AllowanceSum(s, AllCategories)
  {
    AllowanceSumOfAll(s);
    var afterCpu := if s.cpu.Some? then s.cpu.value.wattage else 0;
    var afterGpu := if s.gpu.Some? then afterCpu + s.gpu.value.wattage else afterCpu;
    var afterBase := afterGpu + 50;
    var afterRam := if s.ram.Some? then afterBase + 10 else afterBase;
    if s.storage.Some? then afterRam + 15 else afterRam
  }

  // ------------------------------------------------------------ the handler

  /** The validate-compatibility handler as a pure function of the selection. */
  function Validate(s: Selection): (r: Report)
    ensures r.compatible <==> |r.issues| == 0
    ensures r.totalWattage == BaseAllowance + AllowanceSum(s, AllCategories)
    ensures r.recommendedWattage == Recommended(r.totalWattage)
    // issues appear in rule order, at most one per rule
    ensures InRuleOrder(r.issues)
  {
    var total := TotalWattage(s);
    var recommended := Recommended(total);
    var socket := SocketCheck(s);
    var memory := MemoryCheck(s);
    var form := FormFactorCheck(s);
    var power := PowerCheck(s, recommended);
    FourRulesInOrder(socket, memory, form, power);
    var issues := Listed(socket) + Listed(memory) + Listed(form) + Listed(power);
    Report(|issues| == 0, issues, total, recommended)
  }

  /** Ranks strictly increase along the sequence: rule order, one issue per rule. */
  predicate InRuleOrder(issues: seq<Issue>) {
    forall i, j :: 0 <= i < j < |issues| ==> Rank(issues[i]) < Rank(issues[j])
  }

  /** One optional issue per rule, each of its own rule, listed in rule order. */
  lemma FourRulesInOrder(socket: Option<Issue>, memory: Option<Issue>, form: Option<Issue>, power: Option<Issue>)
    requires socket.Some? ==> Rank(socket.value) == 0
    requires memory.Some? ==> Rank(memory.value) == 1
    requires form.Some? ==> Rank(form.value) == 2
    requires power.Some? ==> Rank(power.value) == 3
    ensures InRuleOrder(Listed(socket) + Listed(memory) + Listed(form) + Listed(power))
  {
    var a, b, c, d := Listed(socket), Listed(memory), Listed(form), Listed(power);
    OrderedConcat(a, b);
    OrderedConcat(a + b, c);
    OrderedConcat(a + b + c, d);
  }

  lemma OrderedConcat(a: seq<Issue>, b: seq<Issue>)
    requires InRuleOrder(a) && InRuleOrder(b)
    requires forall x, y :: x in a && y in b ==> Rank(x) < Rank(y)
    ensures InRuleOrder(a + b)
  {
    forall i, j | 0 <= i < j < |a + b|
      ensures Rank((a + b)[i]) < Rank((a + b)[j])
    {
      if j < |a| {
      } else if i >= |a| {
        assert (a + b)[i] == b[i - |a|] && (a + b)[j] == b[j - |a|];
      } else {
        assert (a + b)[i] in a && (a + b)[j] in b;
      }
    }
  }

  /** An optional issue as a list of zero or one issues. */
  function Listed(o: Option<Issue>): (r: seq<Issue>)
    ensures |r| <= 1
    ensures forall i :: i in r <==> o == Some(i)
  {
    match o case Some(i) => [i] case None => []
  }

  /** Rule 1: the CPU's socket must equal the board's. */
  function SocketCheck(s: Selection): (r: Option<Issue>)
    ensures r.Some? <==> SocketRuleFails(s)
    ensures r.Some? ==> r.value == SocketMismatch(s.cpu.value.socket, s.motherboard.value.socket)
  {
    var cpu := s.cpu;
    var board := s.motherboard;
    if cpu.Some? && board.Some? && cpu.value.socket != board.value.socket
    then Some(SocketMismatch(cpu.value.socket, board.value.socket))
    else None
  }

  /** Rule 2: the board's specs text must name the RAM's generation. */
  function MemoryCheck(s: Selection): (r: Option<Issue>)
    ensures r.Some? <==> MemoryRuleFails(s)
    ensures r.Some? ==> r.value == MemoryMismatch(s.ram.value.memoryType, Advertised(s.motherboard.value))
  {
    var ram := s.ram;
    var board := s.motherboard;
    if ram.Some? && board.Some? then
      var supported :=
        || (Contains(board.value.specs, "DDR5") && ram.value.memoryType == "DDR5")
        || (Contains(board.value.specs, "DDR4") && ram.value.memoryType == "DDR4");
      if !supported then
        Some(MemoryMismatch(ram.value.memoryType, if Contains(board.value.specs, "DDR5") then "DDR5" else "DDR4"))
      else None
    else None
  }

  /** Rule 3: an ATX board does not fit a Micro-ATX case; no other pairing is checked. */
  function FormFactorCheck(s: Selection): (r: Option<Issue>)
    ensures r.Some? <==> FormFactorRuleFails(s)
    ensures r.Some? ==> r.value == FormFactorMismatch("ATX", "Micro-ATX")
  {
    var pcCase := s.pcCase;
    var board := s.motherboard;
    if pcCase.Some? && board.Some? && pcCase.value.formFactor == "Micro-ATX" && board.value.formFactor == "ATX"
    then Some(FormFactorMismatch(board.value.formFactor, pcCase.value.formFactor))
    else None
  }

  /** Rule 4: a selected PSU must supply at least the recommended wattage. */
  function PowerCheck(s: Selection, recommended: nat): (r: Option<Issue>)
    requires recommended == Recommended(TotalWattage(s))
    ensures r.Some? <==> PowerRuleFails(s)
    ensures r.Some? ==> r.value == InsufficientPower(s.psu.value.wattage, recommended)
  {
    var psu := s.psu;
    if psu.Some? && psu.value.wattage < recommended
    then Some(InsufficientPower(psu.value.wattage, recommended))
    else None
  }

  // ------------------------------------------------------------ properties

  /** An issue is reported exactly when one of the four rule checks produces it. */
  lemma IssuesOfRules(s: Selection)
    ensures forall i :: i in Validate(s).issues <==>
      || SocketCheck(s) == Some(i) || MemoryCheck(s) == Some(i) || FormFactorCheck(s) == Some(i)
      || PowerCheck(s, Recommended(TotalWattage(s))) == Some(i)
  {
    var recommended := Recommended(TotalWattage(s));
    var socket := Listed(SocketCheck(s));
    var memory := Listed(MemoryCheck(s));
    var form := Listed(FormFactorCheck(s));
    var power := Listed(PowerCheck(s, recommended));
    assert Validate(s).issues == socket + memory + form + power;
  }

  /** A socket issue is reported iff CPU and board are both selected with different sockets; it quotes both. */
  lemma SocketRule(s: Selection)
    ensures SocketRuleFails(s) <==> exists i :: i in Validate(s).issues && i.SocketMismatch?
    ensures forall i :: i in Validate(s).issues && i.SocketMismatch? ==>
      SocketRuleFails(s) && i == SocketMismatch(s.cpu.value.socket, s.motherboard.value.socket)
  {
    IssuesOfRules(s);
    if SocketRuleFails(s) {
      assert SocketCheck(s).value in Validate(s).issues;
    }
  }

  /**
   * A memory issue is reported iff RAM and board are both selected and the
   * board's specs do not name the RAM's generation; it quotes the RAM type and
   * says the board supports DDR5 when its specs mention DDR5, DDR4 otherwise.
   */
  lemma MemoryRule(s: Selection)
    ensures MemoryRuleFails(s) <==> exists i :: i in Validate(s).issues && i.MemoryMismatch?
    ensures forall i :: i in Validate(s).issues && i.MemoryMismatch? ==>
      MemoryRuleFails(s) && i == MemoryMismatch(s.ram.value.memoryType, Advertised(s.motherboard.value))
  {
    IssuesOfRules(s);
    if MemoryRuleFails(s) {
      assert MemoryCheck(s).value in Validate(s).issues;
    }
  }

  /** A form-factor issue is reported iff an ATX board sits with a Micro-ATX case. */
  lemma FormFactorRule(s: Selection)
    ensures FormFactorRuleFails(s) <==> exists i :: i in Validate(s).issues && i.FormFactorMismatch?
    ensures forall i :: i in Validate(s).issues && i.FormFactorMismatch? ==>
      FormFactorRuleFails(s) && i == FormFactorMismatch("ATX", "Micro-ATX")
  {
    IssuesOfRules(s);
    if FormFactorRuleFails(s) {
      assert FormFactorCheck(s).value in Validate(s).issues;
    }
  }

  /** A power issue is reported iff a PSU is selected whose wattage is below the recommendation; it cites both. */
  lemma PowerRule(s: Selection)
    ensures PowerRuleFails(s) <==> exists i :: i in Validate(s).issues && i.InsufficientPower?
    ensures forall i :: i in Validate(s).issues && i.InsufficientPower? ==>
      PowerRuleFails(s) && i == InsufficientPower(s.psu.value.wattage, Validate(s).recommendedWattage)
  {
    IssuesOfRules(s);
    if PowerRuleFails(s) {
      assert PowerCheck(s, Recommended(TotalWattage(s))).value in Validate(s).issues;
    }
  }

  /** A sequence whose ranks strictly increase has an issue of rank at least k at position k. */
  lemma {:induction false} RankAtLeastPosition(issues: seq<Issue>, k: nat)
    requires InRuleOrder(issues)
    requires k < |issues|
    ensures Rank(issues[k]) >= k
  {
    if k > 0 {
      RankAtLeastPosition(issues, k - 1);
      assert Rank(issues[k - 1]) < Rank(issues[k]);
    }
  }

  /** Issues in strictly increasing rule order number at most four. */
  lemma RankedIssuesAtMostFour(issues: seq<Issue>)
    requires InRuleOrder(issues)
    ensures |issues| <= 4
  {
    if |issues| > 4 {
      RankAtLeastPosition(issues, 4);
    }
  }

  /** One issue per rule at most, so a report never holds more than four. */
  lemma AtMostFourIssues(s: Selection)
    ensures |Validate(s).issues| <= 4
  {
    RankedIssuesAtMostFour(Validate(s).issues);
  }

  /** With nothing selected the build is compatible, draws 50 W and 65 W is recommended. */
  lemma EmptySelectionReport()
    ensures Validate(InitialSelection()) == Report(true, [], 50, 65)
  {
  }

  /** The socket message quotes both sockets. */
  lemma SocketMessageNamesBoth(cpu: string, board: string)
    ensures Contains(Message(SocketMismatch(cpu, board)), cpu)
    ensures Contains(Message(SocketMismatch(cpu, board)), board)
  {
    var head := "CPU socket (";
    var mid := ") is not compatible with motherboard socket (";
    ContainsSelf(cpu);
    ContainsRight(head, cpu, cpu);
    ContainsLeft(head + cpu, mid, cpu);
    ContainsLeft(head + cpu + mid, board, cpu);
    ContainsLeft(head + cpu + mid + board, ")", cpu);
    ContainsSelf(board);
    ContainsRight(head + cpu + mid, board, board);
    ContainsLeft(head + cpu + mid + board, ")", board);
  }

  /** The memory message quotes the RAM type and the generation the board appears to support. */
  lemma MemoryMessageNamesBoth(ram: string, supports: string)
    ensures Contains(Message(MemoryMismatch(ram, supports)), ram)
    ensures Contains(Message(MemoryMismatch(ram, supports)), supports)
  {
    var head := "RAM type (";
    var mid := ") is not compatible with motherboard (supports ";
    ContainsSelf(ram);
    ContainsRight(head, ram, ram);
    ContainsLeft(head + ram, mid, ram);
    ContainsLeft(head + ram + mid, supports, ram);
    ContainsLeft(head + ram + mid + supports, ")", ram);
    ContainsSelf(supports);
    ContainsRight(head + ram + mid, supports, supports);
    ContainsLeft(head + ram + mid + supports, ")", supports);
  }

  /** The power message cites the PSU's wattage and the recommended wattage, each followed by W. */
  lemma PowerMessageCitesWattages(psu: nat, recommended: nat)
    ensures Contains(Message(InsufficientPower(psu, recommended)), Watts(psu))
    ensures Contains(Message(InsufficientPower(psu, recommended)), Watts(recommended))
  {
    var head := "Power supply (";
    var mid := ") may be insufficient for your build. Recommended: ";
    ContainsSelf(Watts(psu));
    ContainsRight(head, Watts(psu), Watts(psu));
    ContainsLeft(head + Watts(psu), mid, Watts(psu));
    ContainsLeft(head + Watts(psu) + mid, Watts(recommended), Watts(psu));
    ContainsSelf(Watts(recommended));
    ContainsRight(head + Watts(psu) + mid, Watts(recommended), Watts(recommended));
  }

  /** Selecting a part for an empty category raises the sum by exactly that part's allowance. */
  lemma {:induction false} AllowanceSumWith(s: Selection, c: Category, p: Part, cs: seq<Category>)
    requires s.Get(c).None?
    requires forall i, j :: 0 <= i < j < |cs| ==> cs[i] != cs[j]
    ensures AllowanceSum(s.With(c, Some(p)), cs) == AllowanceSum(s, cs) + (if c in cs then Allowance(c, p) else 0)
  {
    if cs != [] {
      AllowanceSumWith(s, c, p, cs[1..]);
      assert c in cs <==> (cs[0] == c || c in cs[1..]);
    }
  }

  /**
   * Adding a part to an empty category raises the estimate by that part's
   * allowance (zero for cooler, PSU and case), so it never lowers the
   * recommended PSU wattage.
   */
  lemma AddingPartRaisesDraw(s: Selection, c: Category, p: Part)
    requires s.Get(c).None?
    ensures TotalWattage(s.With(c, Some(p))) == TotalWattage(s) + Allowance(c, p)
    ensures Recommended(TotalWattage(s)) <= Recommended(TotalWattage(s.With(c, Some(p))))
  {
    AllowanceSumWith(s, c, p, AllCategories);
    AllCategoriesComplete(c);
  }

  // ------------------------------------------------------------ worked cases

  function Board(socket: string, specs: string, formFactor: string): Part {
    Part("board", 0, socket, specs, "", formFactor, 0)
  }

  function Drawing(wattage: nat): Part {
    Part("part", 0, "", "", "", "", wattage)
  }

  /** AM5 processor on an LGA1700 board: exactly one issue, the socket mismatch. */
  lemma SocketMismatchCase()
    ensures Validate(InitialSelection().With(Cpu, Some(Part("cpu", 0, "AM5", "", "", "", 0)))
                                       .With(Motherboard, Some(Board("LGA1700", "", "ATX")))).issues
            == [SocketMismatch("AM5", "LGA1700")]
  {
  }

  /** DDR4 memory on a board whose specs name DDR5 is flagged. */
  lemma MemoryDdr4Case()
    ensures Validate(Build(None, Some(Board("", "DDR5", "ATX")), Some(Part("ram", 0, "", "", "DDR4", "", 0)), None, None, None, None)).issues
            == [MemoryMismatch("DDR4", "DDR5")]
  {
    var s := Build(None, Some(Board("", "DDR5", "ATX")), Some(Part("ram", 0, "", "", "DDR4", "", 0)), None, None, None, None);
    ContainsSelf("DDR5");
    assert !Contains("DDR5", "DDR4") by { assert "DDR5"[3] != "DDR4"[3]; }
    assert MemoryCheck(s) == Some(MemoryMismatch("DDR4", "DDR5"));
    assert SocketCheck(s) == None && FormFactorCheck(s) == None && PowerCheck(s, Recommended(TotalWattage(s))) == None;
  }

  /** DDR5 memory on a board whose specs name DDR5 passes. */
  lemma MemoryDdr5Case()
    ensures Validate(Build(None, Some(Board("", "DDR5", "ATX")), Some(Part("ram", 0, "", "", "DDR5", "", 0)), None, None, None, None)).issues
            == []
  {
    var s := Build(None, Some(Board("", "DDR5", "ATX")), Some(Part("ram", 0, "", "", "DDR5", "", 0)), None, None, None, None);
    ContainsSelf("DDR5");
    assert MemoryCheck(s) == None;
    assert SocketCheck(s) == None && FormFactorCheck(s) == None && PowerCheck(s, Recommended(TotalWattage(s))) == None;
  }

  /** A build that holds only the given CPU, board, RAM, GPU, storage, PSU and case. */
  function Build(cpu: Option<Part>, board: Option<Part>, ram: Option<Part>, gpu: Option<Part>,
                 storage: Option<Part>, psu: Option<Part>, pcCase: Option<Part>): Selection {
    Selection(cpu, board, ram, gpu, storage, None, psu, pcCase)
  }

  /** An ATX board in a Micro-ATX case is flagged. */
  lemma MicroAtxCaseCase()
    ensures Validate(Build(None, Some(Board("", "", "ATX")), None, None, None, None, Some(Board("", "", "Micro-ATX")))).issues
            == [FormFactorMismatch("ATX", "Micro-ATX")]
  {
    var micro := Build(None, Some(Board("", "", "ATX")), None, None, None, None, Some(Board("", "", "Micro-ATX")));
    assert SocketCheck(micro) == None && MemoryCheck(micro) == None;
    assert PowerCheck(micro, Recommended(TotalWattage(micro))) == None;
    assert FormFactorCheck(micro) == Some(FormFactorMismatch("ATX", "Micro-ATX"));
  }

  /** An ATX board in a Mini-ITX case is not flagged: the rule table checks only Micro-ATX cases. */
  lemma MiniItxCaseCase()
    ensures Validate(Build(None, Some(Board("", "", "ATX")), None, None, None, None, Some(Board("", "", "Mini-ITX")))).issues
            == []
  {
    var mini := Build(None, Some(Board("", "", "ATX")), None, None, None, None, Some(Board("", "", "Mini-ITX")));
    assert "Mini-ITX" != "Micro-ATX" by { assert "Mini-ITX"[2] != "Micro-ATX"[2]; }
    assert FormFactorCheck(mini) == None;
  }

  /** A 120 W CPU, a 300 W GPU, RAM and storage draw 495 W, so 644 W is recommended; 550 W is too little, 650 W is enough. */
  lemma PowerCases()
    ensures Validate(Build(Some(Drawing(120)), None, Some(Drawing(0)), Some(Drawing(300)), Some(Drawing(0)), None, None))
            == Report(true, [], 495, 644)
    ensures Validate(Build(Some(Drawing(120)), None, Some(Drawing(0)), Some(Drawing(300)), Some(Drawing(0)), Some(Drawing(550)), None)).issues
            == [InsufficientPower(550, 644)]
    ensures Validate(Build(Some(Drawing(120)), None, Some(Drawing(0)), Some(Drawing(300)), Some(Drawing(0)), Some(Drawing(650)), None)).issues
            == []
  {
    var weak := Build(Some(Drawing(120)), None, Some(Drawing(0)), Some(Drawing(300)), Some(Drawing(0)), Some(Drawing(550)), None);
    assert TotalWattage(weak) == 495;
    assert PowerCheck(weak, 644) == Some(InsufficientPower(550, 644));
    assert Validate(weak).issues == [] + [] + [] + [InsufficientPower(550, 644)];
  }
}
